=== FILE: README.md ===
# C0RVEX Command Center: a verified model of the proposal generator and record rules

This project models the part of the C0RVEX Command Center that computes
things: the one-page sales proposal, the pitch text and the record rules.

- **Proposal generator.** One A4 portrait page is laid out by a single
  vertical cursor. The model proves where every item lands. A jsPDF
  document is modelled as a log of placed items.
- **Proposal and pitch actions.** A fixed region table (BR, US, EU) sets
  the currency, fees, language and delivery time. The pitch is either a
  stored template filled by `{{KEY}}` substitution or a fixed localized
  fallback.
- **Sales page.** The page checks that a client name was entered, picks
  the regional entry and builds the name of the downloaded file.
- **Record rules.**
  - Slug generation in the new-client form.
  - The client table's search and filters.
  - Partner validation and the partner row.
  - Client duplicate checks, status toggle and delete.

The Supabase tables are modelled as classes holding a sequence of rows.
Each store failure is a boolean parameter, whether or not the code reads it, and the id a new row gets is a
parameter too. `Date.now()` becomes a parameter `now`.

Modules, one per source file:

- `Common` (common.dfy) holds the shared helpers:
  - `Option` and `Outcome`;
  - JavaScript truthiness and `x || null`;
  - `includes` (`Occurs`);
  - ASCII `toLowerCase`;
  - decimal rendering of naturals.
- `Template` (template.dfy): `replaceVariables`.
- `ProposalGenerator` (layout.dfy): `generateProposalPDF` and `addSection`.
- `Proposals` (proposals.dfy): `generateProposal` and `generatePitch`.
- `SalesPage` (sales_page.dfy): the sales page's handlers.
- `Slugs` (slug.dfy): `generateSlug`.
- `ClientTable` (client_table.dfy): the client list filter.
- `Partners` (partners.dfy): the partner actions.
- `Clients` (clients.dfy): the client actions.

Two facts about the code worth knowing:

- The downloaded file is named `Proposta_<name>_<millis>.pdf`
  (app/sales/page.tsx:61).
- Every localized string is chosen by "`pt-BR`, else English", so the `es`
  language renders English copy (lib/pdf/proposalGenerator.ts:60-62).
  `ProposalGenerator.SpanishRendersEnglish` proves this.

## Model

| member | source | states |
|---|---|---|
| Template.ReplaceVariables | lib/pdf/proposalGenerator.ts:204-211 | The loop applies the entries one after another, each as a global literal replacement. Its result equals the recursive specification `Substitute`. |
| Template.ReplaceAllEveryOccurrence | lib/pdf/proposalGenerator.ts:207-208 | Every occurrence of `{{KEY}}` is replaced, not only the first: a text that is pieces joined by the placeholder becomes the same pieces joined by the value. |
| Template.ReplaceAllNoOccurrence | lib/pdf/proposalGenerator.ts:207-208 | A text in which the placeholder does not occur is returned unchanged. |
| Template.SubstituteNoPlaceholder | lib/pdf/proposalGenerator.ts:205-210 | A template containing none of the keys' placeholders (for example, with no variables at all) comes back unchanged. |
| Template.UnknownPlaceholderVerbatim | lib/pdf/proposalGenerator.ts:205-210 | A placeholder whose name is not one of the keys survives the substitution wherever it stands in the template, next to known placeholders or not. |
| Template.LonePlaceholderVerbatim | lib/pdf/proposalGenerator.ts:205-210 | A template that is only an unknown placeholder comes back unchanged. |
| Template.NoStraddle | lib/pdf/proposalGenerator.ts:207-208 | A placeholder, whose only `{` characters are its opening pair, cannot begin before a following `{{` and end inside it. |
| Template.ReplaceAllBeforePlaceholder | lib/pdf/proposalGenerator.ts:207-208 | The text before a `{{` is scanned on its own: no placeholder match runs on into it. |
| Template.ReplaceAllKeepsPlaceholder | lib/pdf/proposalGenerator.ts:207-208 | Replacing one key copies another key's placeholder through unchanged. |
| Template.PlaceholderDistinct | lib/pdf/proposalGenerator.ts:207 | Placeholders of two different key names never occur inside one another. |
| Template.SubstituteAppend | lib/pdf/proposalGenerator.ts:206-209 | Substituting a list of entries is substituting the first part, then the rest, in entry order. |
| Template.SubstituteTwo | lib/pdf/proposalGenerator.ts:206-209 | With two entries, the result is the second replacement applied to the first one's output. |
| Template.LaterKeyRewritesEarlierValue | lib/pdf/proposalGenerator.ts:206-209 | Text inserted for an earlier key is rewritten by a later key: a value holding `{{b}}` is replaced by `b`'s value. |
| Template.ReplaceAllChar | app/sales/page.tsx:61 | Replacing one character by another keeps the length and changes exactly the positions holding that character. |
| ProposalGenerator.Document.A4Portrait | lib/pdf/proposalGenerator.ts:26-33 | A new document is A4 portrait and empty; the model's page is 210 × 297 mm. |
| ProposalGenerator.Document.Draw | lib/pdf/proposalGenerator.ts:37-42 | Drawing appends exactly one item to the document's log. |
| ProposalGenerator.CopyFor | lib/pdf/proposalGenerator.ts:60-176 | Every localized string is chosen by one rule: the Portuguese copy exactly when the language is `pt-BR`, the English copy otherwise. Each copy has four pillars. |
| ProposalGenerator.FeeText | lib/pdf/proposalGenerator.ts:149-157 | A fee reads `<currency> <digits>.00`. The digits are the fee's decimal form, with no leading zero, and parse back to the fee. |
| ProposalGenerator.AddSection | lib/pdf/proposalGenerator.ts:190-201 | Draws the section title and its underline one unit below. Returns exactly `y + 8`. |
| ProposalGenerator.DrawHeader | lib/pdf/proposalGenerator.ts:36-52 | Draws the background, the header band and the two centred header lines. |
| ProposalGenerator.DrawIntro | lib/pdf/proposalGenerator.ts:54-71 | Title at `y`, "For: <client>" at `y+10`; the cursor ends at `y+25`. |
| ProposalGenerator.DrawChallenge | lib/pdf/proposalGenerator.ts:73-81 | Section, then the paragraph at `y+8`; the cursor ends at `y+23`. |
| ProposalGenerator.DrawSolution | lib/pdf/proposalGenerator.ts:83-91 | Section, then the paragraph at `y+8`; the cursor ends at `y+28`. |
| ProposalGenerator.DrawPillarCards | lib/pdf/proposalGenerator.ts:108-128 | The loop draws one card per pillar, each advancing the cursor by 20. The drawn items are `PillarCards(pillars, y)`. |
| ProposalGenerator.DrawPillars | lib/pdf/proposalGenerator.ts:93-130 | Section, the cards, then the extra `+5`; the cursor ends at `y + 8 + 20·n + 5`. |
| ProposalGenerator.DrawInvestment | lib/pdf/proposalGenerator.ts:132-159 | Section, the price card with the two labels and the two right-aligned fees; the cursor ends at `y+38`. |
| ProposalGenerator.DrawDelivery | lib/pdf/proposalGenerator.ts:161-177 | Section, the delivery line at `y+8` and the disclaimer at `y+18`. |
| ProposalGenerator.DrawFooter | lib/pdf/proposalGenerator.ts:179-185 | The footer band at `pageHeight - 20` and its centred text at `pageHeight - 10`. |
| ProposalGenerator.DrawTop | lib/pdf/proposalGenerator.ts:54-91 | The title, the challenge and the solution. The cursor takes `y+10`, `y+25`, `y+33`, `y+48`, `y+56` and ends at `y+76`. |
| ProposalGenerator.DrawBottom | lib/pdf/proposalGenerator.ts:93-177 | The pillars, the investment and the delivery sections. The cursor passes one card every 20 and ends at `y + 69 + 20n`. |
| ProposalGenerator.DrawBody | lib/pdf/proposalGenerator.ts:54-177 | The body sections in order. The cursor values taken are `PageCursor(n)` for `n` pillars. |
| ProposalGenerator.DrawPage | lib/pdf/proposalGenerator.ts:36-185 | Header, body and footer. The document gains exactly `Layout(copy, data)`. |
| ProposalGenerator.GenerateProposalPdf | lib/pdf/proposalGenerator.ts:25-188 | Returns a new A4 document holding exactly `ProposalItems(data)`. The cursor takes exactly 50, 60, 75, 83, 98, 106, 126, 134, 154, 174, 194, 214, 219, 227, 257, 265, 275, whatever the client name, language or text. |
| ProposalGenerator.CursorMovesDown | lib/pdf/proposalGenerator.ts:55-177 | For any number of pillars, every cursor value is larger than the one before: the single cursor only moves down the page. |
| ProposalGenerator.FourPillarCursor | lib/pdf/proposalGenerator.ts:55-177 | With four pillars the cursor sequence is the fixed seventeen values above. |
| ProposalGenerator.PillarCardsGeometry | lib/pdf/proposalGenerator.ts:108-128 | `n` pillar cards are `4n` items, top to bottom, between `y-5` and `y+20n-14`. |
| ProposalGenerator.BodyGeometry | lib/pdf/proposalGenerator.ts:55-177 | The body items go down the page and lie between 50 and `195 + 20n`. |
| ProposalGenerator.LayoutGeometry | lib/pdf/proposalGenerator.ts:36-185 | With one to four pillars, every item is ordered top to bottom and lies on the page. Everything before the footer is placed above the top of the footer band. |
| ProposalGenerator.ProposalGeometry | lib/pdf/proposalGenerator.ts:36-185 | The page has 43 items in top-to-bottom order. The first 41 are placed at y ≤ 275, which on the model's 297 mm page is 2 mm above the top of the footer band, and item 41 is that band, at `pageHeight - 20` = 277. |
| ProposalGenerator.ProposalBullets | lib/pdf/proposalGenerator.ts:108-128 | Exactly four pillar bullets are drawn, at 134, 154, 174 and 194. |
| ProposalGenerator.PillarCardsBullets | lib/pdf/proposalGenerator.ts:108-128 | `n` cards have `n` bullets, 20 mm apart. |
| ProposalGenerator.LayoutBullets | lib/pdf/proposalGenerator.ts:96-130 | The page's bullets are one per pillar, starting at 134. |
| ProposalGenerator.ProposalPlaces | lib/pdf/proposalGenerator.ts:55-185 | Any two proposals draw the same kinds of items, of the same sizes, at the same places; only the texts differ. The layout does not depend on the client name, the language or the texts. |
| ProposalGenerator.LayoutPlaces | lib/pdf/proposalGenerator.ts:55-185 | Two layouts with the same number of pillars draw the same kinds of items, of the same sizes, at the same places. |
| ProposalGenerator.OnlyGreetingNamesClient | lib/pdf/proposalGenerator.ts:69-70 | Changing the client name changes exactly one item: the "For: <name>" line at y = 60. |
| ProposalGenerator.ProposalPrices | lib/pdf/proposalGenerator.ts:143-157 | The setup fee is shown at y = 232 and the monthly fee at y = 239. Both are right-aligned at `pageWidth - margin - 5`, and the monthly fee carries the per-month suffix. |
| ProposalGenerator.SpanishRendersEnglish | lib/pdf/proposalGenerator.ts:60-62 | A proposal in `es` is identical to the same proposal in `en`. |
| Proposals.Config | app/actions/proposals.ts:18-22 | The region table: the language is `pt-BR` exactly for BR and never `es`. |
| Proposals.EuropeIsUnitedStatesInEuros | app/actions/proposals.ts:20-21 | EU is the US entry with `€` as currency. The three currencies differ. |
| Proposals.DataFor | app/actions/proposals.ts:24-36 | The generator receives the client name, the business type as given, the region, and that region's language, currency, fees and delivery text. |
| Proposals.RecordFor | app/actions/proposals.ts:44-55 | The proposal row is a draft. It has a client id only when a non-empty one was given. The client name, business type and region come from the request; the language, currency, fees and delivery text come from the region entry. |
| Proposals.ProposalTable.Insert | app/actions/proposals.ts:42-57 | A failing insert leaves the table unchanged. A successful one appends exactly the row. |
| Proposals.GenerateProposal | app/actions/proposals.ts:14-70 | Always succeeds and returns the drawn proposal. A failed insert leaves the table unchanged and gives no proposal id. A successful one appends the draft row and returns its id. |
| Proposals.PitchLanguage | app/actions/proposals.ts:76 | `pt-BR` exactly for BR, otherwise `en`. |
| Proposals.PitchLanguageAgrees | app/actions/proposals.ts:76 | The pitch language equals the region table's language. |
| Proposals.EffectiveBusinessType | app/actions/proposals.ts:88-97 | An absent or empty business type becomes `negócio` for BR and `business` otherwise. A non-empty one is kept. |
| Proposals.PitchText | app/actions/proposals.ts:87-89 | The fallback text starts with its greeting and contains the client name and the business type. |
| Proposals.FallbackPitch | app/actions/proposals.ts:85-91 | The fallback is Portuguese for BR and English otherwise. It contains the client name and the effective business type. |
| Proposals.PitchTemplates | app/actions/proposals.ts:78-82 | The templates queried are exactly the stored `pitch` templates in the pitch language, each as many times as it is stored. |
| Proposals.DuplicateTemplateNoSingle | app/actions/proposals.ts:78-85 | Two stored copies of the same matching template make `.single()` return nothing, so the fallback pitch is used. |
| Proposals.SingleTemplate | app/actions/proposals.ts:78-85 | `.single()` yields a template exactly when one row matches, and that row is stored. |
| Proposals.GeneratePitch | app/actions/proposals.ts:72-101 | Always succeeds, with the text `PitchFor`: the fallback when no single template exists, else the template filled with `CLIENT_NAME` and `BUSINESS_TYPE`. |
| Proposals.FallbackPitchContents | app/actions/proposals.ts:85-91 | Without a single template, the pitch has the region's greeting and contains the name and the business type (or its default). |
| Proposals.NamePass | app/actions/proposals.ts:95-97 | The first replacement puts the client name where `{{CLIENT_NAME}}` was and leaves `{{BUSINESS_TYPE}}` in place. |
| Proposals.BusinessTypePass | app/actions/proposals.ts:95-98 | The second replacement puts the business type where `{{BUSINESS_TYPE}}` was. |
| Proposals.PitchFillsTemplate | app/actions/proposals.ts:95-98 | A template `a{{CLIENT_NAME}}b{{BUSINESS_TYPE}}c` (no braces elsewhere or in the name) becomes `a<name>b<business type>c`. |
| SalesPage.PageConfigMatchesServer | app/sales/page.tsx:40-44 | The page's region table equals the server's, entry for entry. |
| SalesPage.PageDataMatchesServer | app/sales/page.tsx:46-58 | The page hands the generator exactly the data the server action builds for the same fields. |
| SalesPage.SaveProposal | app/sales/page.tsx:49-62 | The saved download has the file name built from the client name and the clock. It holds exactly the proposal the generator draws for the page's data. |
| SalesPage.FileName | app/sales/page.tsx:61 | The file name is `Proposta_`, then the client name with every space made `_`, then `_`, the decimal timestamp and `.pdf`. Every other character is kept. |
| SalesPage.FileNameHasNoSpace | app/sales/page.tsx:61 | The file name contains no space. |
| SalesPage.SalesPage.constructor | app/sales/page.tsx:13-18 | Empty fields, region BR, no pitch, nothing generated. |
| SalesPage.SalesPage.EditFields | app/sales/page.tsx:113-125 | Only the name and the business type change. |
| SalesPage.SalesPage.SelectRegion | app/sales/page.tsx:145-149 | Only the region changes. |
| SalesPage.SalesPage.HandleGeneratePitch | app/sales/page.tsx:20-34 | Without a client name nothing changes. Otherwise the pitch shown is the server's pitch for the form's fields. |
| SalesPage.SalesPage.HandleGenerateProposal | app/sales/page.tsx:36-66 | Without a client name nothing changes. Otherwise exactly one download is added, holding the file name and the proposal for the page's data, and the "generated" flag is raised. |
| Slugs.GenerateSlug | components/NewClientModal.tsx:57-62 | The slug has only `a-z`, `0-9` and `-`, no doubled hyphen and no hyphen at either end. It keeps the ASCII letters and digits of the lower-cased name, in order. |
| Slugs.Hyphenate | components/NewClientModal.tsx:60 | The output has pattern characters only, no doubled hyphen, and the same letters and digits. It starts with the input's first character when that is kept, and with a hyphen otherwise. Where each hyphen goes is stated by `HyphenateSeparator`. |
| Slugs.HyphenateKeepsSlugChars | components/NewClientModal.tsx:60 | A stretch of `[a-z0-9]` characters is copied through unchanged, whatever follows it. |
| Slugs.HyphenateRun | components/NewClientModal.tsx:60 | A whole run outside `[a-z0-9]` at the front becomes exactly one hyphen. |
| Slugs.HyphenateSeparator | components/NewClientModal.tsx:60 | Two words of `[a-z0-9]` around a run of other characters become the two words joined by one hyphen. |
| Slugs.GenerateSlugJoinsWords | components/NewClientModal.tsx:58-62 | A lower-cased name made of two words of `[a-z0-9]` around any run of other characters gives the slug `first-second`. |
| Slugs.DropRun | components/NewClientModal.tsx:60 | Drops the leading run outside `[a-z0-9]`. The result is a suffix that starts with a letter or digit, or is empty. |
| Slugs.TrimSlug | components/NewClientModal.tsx:61 | Removing the end hyphens from hyphenated text gives a well-formed slug. |
| Slugs.TrimKeepsAlnums | components/NewClientModal.tsx:61 | Trimming keeps every letter and digit. |
| Slugs.NoAlnumsEmptySlug | components/NewClientModal.tsx:60-61 | A name with no ASCII letter or digit gives the empty slug. |
| Slugs.GenerateSlugIdempotent | components/NewClientModal.tsx:57-62 | The slug of a slug is itself. |
| Slugs.HyphenateSlugText | components/NewClientModal.tsx:60 | Hyphenation leaves slug text unchanged. |
| ClientTable.FilterClients | components/ClientTable.tsx:29-41 | The shown list is an order-preserving sub-list of the clients. A client is in it exactly when the search, the status filter and the tier filter all match, and a kept client appears as often as in the input. |
| ClientTable.SearchIgnoresCase | components/ClientTable.tsx:31-34 | Queries equal up to case show the same clients. |
| ClientTable.NoFilterShowsAll | components/ClientTable.tsx:32-37 | An empty query with both filters on `'all'` shows every client, in order. |
| ClientTable.StatusAllSplits | components/ClientTable.tsx:36 | Status `'all'` shows exactly as many clients as `active` and `paused` together. |
| ClientTable.TierAllSplits | components/ClientTable.tsx:37 | Tier `'all'` shows exactly as many clients as `gold` and `platinum` together. |
| ClientTable.LongerQueryNarrows | components/ClientTable.tsx:31-34 | If one query occurs in another, ignoring case, every client shown for the longer query is shown for the shorter one. |
| ClientTable.ClientTableView.constructor | components/ClientTable.tsx:24-26 | Starts with an empty query and both filters on `'all'`. |
| ClientTable.ClientTableView.ShownCount | components/ClientTable.tsx:84 | "Showing X of Y": X never exceeds Y. |
| ClientTable.ClientTableView.SetSearchQuery | components/ClientTable.tsx:52 | Only the query changes. |
| ClientTable.ClientTableView.SetStatusFilter | components/ClientTable.tsx:61 | Only the status filter changes. |
| ClientTable.ClientTableView.SetTierFilter | components/ClientTable.tsx:72 | Only the tier filter changes. |
| ClientTable.ClientTableView.ClearFilters | components/ClientTable.tsx:86-92 | Offered only while the query is non-empty. Resets the query to `""` and both filters to `'all'`, so every client is shown. |
| Partners.Validate | app/actions/partners.ts:24-32 | A vendor with a client gets "Vendor partners cannot be assigned to a client". Any other partner without one gets "Please select a client for this partner". Validation passes exactly when having a client matches not being a vendor. |
| Partners.BuildContactInfo | app/actions/partners.ts:34-37 | The contact record has a key for each non-empty field among e-mail, phone and notes, holding that value, and no other key. |
| Partners.NumberOrNull | app/actions/partners.ts:48 | A contract value of 0 or none becomes null; any other value is kept. |
| Partners.NewPartnerRow | app/actions/partners.ts:41-53 | The row is active. It has a client exactly when a non-empty client id was given. Each optional field is `x || null`: null when falsy, otherwise the value given. |
| Partners.AcceptedRowLinksClient | app/actions/partners.ts:24-45 | An accepted partner has a client exactly when it is not a vendor. |
| Partners.PartnerStore.CreatePartner | app/actions/partners.ts:21-68 | A validation failure returns its message and writes nothing. A failing insert returns "Failed to create partner" and writes nothing. Otherwise exactly the new row is appended. The rule "vendors have no client, others have one" is kept for the whole table. |
| Partners.WithActiveKeepsLinks | app/actions/partners.ts:73-76 | Changing `active` keeps the client-link rule. |
| Partners.WithActive | app/actions/partners.ts:73-76 | The update sets `active` on the rows with the id and changes no other row. |
| Partners.PartnerStore.TogglePartnerStatus | app/actions/partners.ts:70-85 | Writes `active = !currentStatus` on the partner's rows, or throws "Failed to update partner status" and writes nothing. |
| Partners.ToggleTwiceRestores | app/actions/partners.ts:75 | Toggling again with the status just written restores the rows. |
| Partners.Without | app/actions/partners.ts:90-93 | After the delete, exactly the rows with another id remain, each as often as before. |
| Partners.PartnerStore.DeletePartner | app/actions/partners.ts:87-102 | Removes the partner's rows, or throws "Failed to delete partner" and leaves the table unchanged. |
| Clients.NewRow | app/actions/clients.ts:50-65 | The new client is active, with the given name, slug, e-mail, country, tier and billing type. Each optional field is `x || null`: null when falsy, otherwise the value given. |
| Clients.SlugCount | app/actions/clients.ts:27-31 | The number of rows with a slug: zero exactly when no row has it. |
| Clients.EmailCount | app/actions/clients.ts:38-42 | The number of rows with an e-mail: zero exactly when no row has it. |
| Clients.ClientStore.CreateClient | app/actions/clients.ts:23-77 | The slug is checked before the e-mail. A found slug gives "Slug already exists" and a found e-mail gives "Email already registered"; either writes nothing. A failing insert gives "Failed to create client". Otherwise exactly the new row is appended and the other rows are unchanged. A table with unique slugs and e-mails keeps them unique when both duplicate lookups succeed; the code never reads a lookup's error, so a failed lookup lets a duplicate in. |
| Clients.UniqueCountsAtMostOne | app/actions/clients.ts:27-46 | With unique keys, a slug or e-mail is on at most one row, so `maybeSingle` finds every duplicate. |
| Clients.AppendKeepsUnique | app/actions/clients.ts:48-67 | Appending a row with a slug and e-mail not on file keeps the keys unique. |
| Clients.DuplicatePairIsNotFound | app/actions/clients.ts:27-35 | Two rows sharing a slug make `maybeSingle` find nothing, so the check lets a third through. |
| Clients.Flip | app/actions/clients.ts:82 | The new status differs from the current one. |
| Clients.FlipTwice | app/actions/clients.ts:82 | Flipping twice gives back the original status. |
| Clients.ClientStore.ToggleClientStatus | app/actions/clients.ts:79-96 | Sets the opposite status on the client's rows and returns it, or throws "Failed to update client status" and writes nothing. |
| Clients.ToggleTwiceRestores | app/actions/clients.ts:79-96 | Toggling with the status the first toggle returned restores the rows. |
| Clients.ClientStore.DeleteClient | app/actions/clients.ts:98-113 | Removes the client's rows, or throws "Failed to delete client" and leaves the table unchanged. |
| Clients.WithStatus | app/actions/clients.ts:84-87 | The update changes the status of the rows with the id and no other row. |
| Clients.Without | app/actions/clients.ts:101-104 | After the delete, exactly the rows with another id remain, each as often as before. |
| Common.OrNull | app/actions/clients.ts:58-64 | `x \|\| null` keeps a non-empty string and makes an absent or empty one null. |
| Common.Lower | components/ClientTable.tsx:32-34 | `toLowerCase` keeps the length and maps each character; ASCII upper-case letters become lower-case. |
| Common.NatToString | app/sales/page.tsx:61 | The timestamp is written in decimal digits with no leading zero, and the digits parse back to the number. |

## Left out

- jsPDF rendering: colours, fonts, line widths, the `roundedRect` corner radii, circle radii and paragraph wrapping by `splitTextToSize`. A paragraph is one item at the place where it starts. The layout lemmas bound each item's anchor y, not the extent of its glyphs or wrapped lines.
- `getTextWidth`: the underline of a section title is placed at `y + 1`, with its length left abstract.
- `output('datauristring')` and `doc.save`: the byte serialization and the browser download. A download is recorded as its file name and the item log.
- Supabase: the client library, the queries as network calls, and `revalidatePath`. Each table is a sequence of rows, and each failure is a boolean parameter. The two duplicate lookups of `createClient` have failure parameters even though the code ignores their errors (app/actions/clients.ts:27-42): a failed lookup reads as "not found". The pitch-template query has no failure parameter: the code ignores its error, so a failed query is folded into "no single template" and gives the fallback pitch.
- `console.error` logging.
- The check-then-insert of `createClient` is not atomic. Concurrent requests are not modelled.
- Template.ReplaceVariables: the lemmas are stated for keys of letters, digits and `_` with at least one non-digit, and values are inserted literally. A key with regular-expression metacharacters, and `$&` or `$1` in a value, are not modelled.
- Template.ReplaceVariables: an all-digit key is not modelled. In the source, `{{1}}` is a regular expression matching `{}`, and `Object.entries` visits integer-like keys first. `Substitute` treats every key literally, in the order given.
- ProposalGenerator.Document.A4Portrait: the page is 210 × 297 mm in whole millimetres. jsPDF's A4 is 595.28 × 841.89 pt, about 210.0016 × 296.9998 mm, so its footer band starts about 0.0002 mm higher and its centre is about 0.0008 mm further right than in the model.
- ProposalGenerator.FeeText: fees are naturals shown with `.00`. Every configured fee is an integer, so `toFixed(2)` on fractional numbers is not modelled.
- Common.Lower: only ASCII letters change case. JavaScript's full Unicode `toLowerCase` is not modelled.
- `Date.now()` is the parameter `now`.
- The sales page's `setTimeout` that clears the "generated" flag after three seconds, the copy button and the pending-transition flag.
- The region caption near the region buttons (app/sales/page.tsx:163) shows `$` for EU. It is display text only.
- The client list's table rendering, links and the status toggle component.
- Contract values: the contract value is a JavaScript number, modelled as an integer. `NaN` and fractions are not modelled.
- Timestamps (`created_at`, `updated_at`) that the database fills in.

=== FILE: client_table.dfy ===
/** The client list's search box and its status and tier filters: a client
    is shown when the query occurs, ignoring case, in its name, slug or
    country, and its status and tier pass the two filters. */
module ClientTable {
  import opened Common
  import opened Clients

  /** The fields of a client the table shows and filters on. */
  datatype Client = Client(
    id: string,
    name: string,
    slug: string,
    country: string,
    status: ClientStatus,
    billingType: BillingType,
    tier: Tier)

  /** A filter select: `'all'` or one value. */
  datatype Filter<T> = All | Only(value: T)

  predicate Passes<T(==)>(f: Filter<T>, v: T)
  {
    f.All? || f.value == v
  }

  /** `matchesSearch`: the lower-cased query occurs in the lower-cased name,
      slug or country. */
  predicate MatchesSearch(query: string, c: Client)
  {
    var q := Lower(query);
    Occurs(q, Lower(c.name)) || Occurs(q, Lower(c.slug)) || Occurs(q, Lower(c.country))
  }

  predicate Keep(c: Client, query: string, status: Filter<ClientStatus>, tier: Filter<Tier>)
  {
    MatchesSearch(query, c) && Passes(status, c.status) && Passes(tier, c.tier)
  }

  /** `r` is `s` with some elements left out, the rest in their order. */
  predicate IsSublist<T(==)>(r: seq<T>, s: seq<T>)
    decreases |s|
  {
    if r == [] then true
    else if s == [] then false
    else (r[0] == s[0] && IsSublist(r[1..], s[1..])) || IsSublist(r, s[1..])
  }

  /** `filteredClients`. */
  function FilterClients(clients: seq<Client>, query: string, status: Filter<ClientStatus>, tier: Filter<Tier>)
    : (shown: seq<Client>)
    ensures |shown| <= |clients|
    ensures IsSublist(shown, clients)
    ensures forall c :: c in shown <==> c in clients && Keep(c, query, status, tier)
    ensures forall c :: Keep(c, query, status, tier) ==> multiset(shown)[c] == multiset(clients)[c]
  {
    if clients == [] then []
    else
      var rest := FilterClients(clients[1..], query, status, tier);
      assert multiset(clients) == multiset([clients[0]]) + multiset(clients[1..]) by {
        assert clients == [clients[0]] + clients[1..];
      }
      if Keep(clients[0], query, status, tier) then
        assert ([clients[0]] + rest)[1..] == rest;
        [clients[0]] + rest
      else
        rest
  }

  /** Lower-casing twice is lower-casing once, so the query's own case never
      matters. */
  lemma LowerTwice(s: string)
    ensures Lower(Lower(s)) == Lower(s)
  {
  }

  /** The search ignores case: two queries equal up to case show the same
      clients. */
  lemma SearchIgnoresCase(clients: seq<Client>, q1: string, q2: string,
                          status: Filter<ClientStatus>, tier: Filter<Tier>)
    requires Lower(q1) == Lower(q2)
    ensures FilterClients(clients, q1, status, tier) == FilterClients(clients, q2, status, tier)
  {
    if clients != [] {
      SearchIgnoresCase(clients[1..], q1, q2, status, tier);
    }
  }

  /** The empty query occurs in every string. */
  lemma EmptyOccurs(s: string)
    ensures Occurs("", s)
  {
    OccursAt("", s, 0);
  }

  /** An empty query with both filters on `'all'` shows every client. */
  lemma {:induction false} NoFilterShowsAll(clients: seq<Client>)
    ensures FilterClients(clients, "", All, All) == clients
  {
    if clients != [] {
      EmptyOccurs(Lower(clients[0].name));
      NoFilterShowsAll(clients[1..]);
      assert [clients[0]] + clients[1..] == clients;
    }
  }

  /** `'all'` for the status is the union of the two single statuses: every
      client shown has one status or the other. */
  lemma {:induction false} StatusAllSplits(clients: seq<Client>, query: string, tier: Filter<Tier>)
    ensures |FilterClients(clients, query, All, tier)|
         == |FilterClients(clients, query, Only(Active), tier)| + |FilterClients(clients, query, Only(Paused), tier)|
  {
    if clients != [] {
      StatusAllSplits(clients[1..], query, tier);
      var c := clients[0];
      var n := |FilterClients(clients[1..], query, All, tier)|;
      var a := |FilterClients(clients[1..], query, Only(Active), tier)|;
      var p := |FilterClients(clients[1..], query, Only(Paused), tier)|;
      var k := if Keep(c, query, All, tier) then 1 else 0;
      assert |FilterClients(clients, query, All, tier)| == k + n;
      assert |FilterClients(clients, query, Only(Active), tier)| == (if c.status == Active then k else 0) + a;
      assert |FilterClients(clients, query, Only(Paused), tier)| == (if c.status == Paused then k else 0) + p;
    }
  }

  /** `'all'` for the tier is the union of the two single tiers. */
  lemma {:induction false} TierAllSplits(clients: seq<Client>, query: string, status: Filter<ClientStatus>)
    ensures |FilterClients(clients, query, status, All)|
         == |FilterClients(clients, query, status, Only(Gold))| + |FilterClients(clients, query, status, Only(Platinum))|
  {
    if clients != [] {
      TierAllSplits(clients[1..], query, status);
      var c := clients[0];
      var n := |FilterClients(clients[1..], query, status, All)|;
      var g := |FilterClients(clients[1..], query, status, Only(Gold))|;
      var p := |FilterClients(clients[1..], query, status, Only(Platinum))|;
      var k := if Keep(c, query, status, All) then 1 else 0;
      assert |FilterClients(clients, query, status, All)| == k + n;
      assert |FilterClients(clients, query, status, Only(Gold))| == (if c.tier == Gold then k else 0) + g;
      assert |FilterClients(clients, query, status, Only(Platinum))| == (if c.tier == Platinum then k else 0) + p;
    }
  }

  lemma OccursTrans(p: string, q: string, s: string)
    requires Occurs(p, q) && Occurs(q, s)
    ensures Occurs(p, s)
  {
    var i :| 0 <= i <= |q| - |p| && p <= q[i..];
    var j :| 0 <= j <= |s| - |q| && q <= s[j..];
    assert p <= s[j + i..] by {
      forall k | 0 <= k < |p|
        ensures p[k] == s[j + i + k]
      {
        assert p[k] == q[i + k] && q[i + k] == s[j + i + k];
      }
    }
    OccursAt(p, s, j + i);
  }

  /** Typing more narrows the list: when the shorter query occurs in the
      longer one (ignoring case), every client the longer query shows is
      shown by the shorter one. */
  lemma LongerQueryNarrows(clients: seq<Client>, short: string, long: string,
                           status: Filter<ClientStatus>, tier: Filter<Tier>)
    requires Occurs(Lower(short), Lower(long))
    ensures forall c :: c in FilterClients(clients, long, status, tier) ==> c in FilterClients(clients, short, status, tier)
  {
    forall c | c in FilterClients(clients, long, status, tier)
      ensures c in FilterClients(clients, short, status, tier)
    {
      var l := Lower(long);
      if Occurs(l, Lower(c.name)) {
        OccursTrans(Lower(short), l, Lower(c.name));
      } else if Occurs(l, Lower(c.slug)) {
        OccursTrans(Lower(short), l, Lower(c.slug));
      } else {
        OccursTrans(Lower(short), l, Lower(c.country));
      }
    }
  }

  /** The table's state: the clients it was given and the three controls. */
  class ClientTableView {
    const clients: seq<Client>
    var searchQuery: string
    var statusFilter: Filter<ClientStatus>
    var tierFilter: Filter<Tier>

    constructor(clients: seq<Client>)
      ensures this.clients == clients
      ensures searchQuery == "" && statusFilter == All && tierFilter == All
    {
      this.clients := clients;
      searchQuery := "";
      statusFilter := All;
      tierFilter := All;
    }

    /** The rows on screen. */
    function Shown(): seq<Client>
      reads this
    {
      FilterClients(clients, searchQuery, statusFilter, tierFilter)
    }

    /** "Showing X of Y": X never exceeds Y. */
    function ShownCount(): (n: nat)
      reads this
      ensures n <= |clients|
    {
      |Shown()|
    }

    /** "Clear filters" is rendered only while the query is non-empty. */
    predicate ClearFiltersVisible()
      reads this
    {
      searchQuery != ""
    }

    method SetSearchQuery(q: string)
      modifies this
      ensures searchQuery == q && statusFilter == old(statusFilter) && tierFilter == old(tierFilter)
    {
      searchQuery := q;
    }

    method SetStatusFilter(f: Filter<ClientStatus>)
      modifies this
      ensures statusFilter == f && searchQuery == old(searchQuery) && tierFilter == old(tierFilter)
    {
      statusFilter := f;
    }

    method SetTierFilter(f: Filter<Tier>)
      modifies this
      ensures tierFilter == f && searchQuery == old(searchQuery) && statusFilter == old(statusFilter)
    {
      tierFilter := f;
    }

    /** The "Clear filters" button: every client is shown again. */
    method ClearFilters()
      requires ClearFiltersVisible()
      modifies this
      ensures searchQuery == "" && statusFilter == All && tierFilter == All
      ensures Shown() == clients
    {
      searchQuery := "";
      statusFilter := All;
      tierFilter := All;
      NoFilterShowsAll(clients);
    }
  }
}

=== FILE: clients.dfy ===
/** The client server actions: `createClient` refuses a slug or an e-mail
    already on file and otherwise inserts an active client;
    `toggleClientStatus` flips active and paused; `deleteClient` removes a
    client. The `clients` table is a sequence of rows. */
module Clients {
  import opened Common

  datatype ClientStatus = Active | Paused
  datatype Tier = Gold | Platinum
  datatype BillingType = Unique | Recurring

  /** A row of the `clients` table (timestamps left out). */
  datatype ClientRow = ClientRow(
    id: string,
    name: string,
    slug: string,
    email: Option<string>,
    country: string,
    status: ClientStatus,
    billingType: BillingType,
    tier: Tier,
    phone: Option<string>,
    website: Option<string>,
    industry: Option<string>,
    companySize: Option<string>,
    contactName: Option<string>,
    contactEmail: Option<string>,
    notes: Option<string>)

  /** The form's data (`CreateClientData`); an optional field that is
      `undefined` or `null` is `None`. */
  datatype NewClient = NewClient(
    name: string,
    slug: string,
    email: string,
    country: string,
    tier: Tier,
    billingType: BillingType,
    phone: Option<string>,
    website: Option<string>,
    industry: Option<string>,
    companySize: Option<string>,
    contactName: Option<string>,
    contactEmail: Option<string>,
    notes: Option<string>)

  /** The row `createClient` inserts: active, with every falsy optional
      field turned into null. */
  function NewRow(data: NewClient, id: string): (row: ClientRow)
    ensures row.status == Active && row.id == id
    ensures row.name == data.name && row.slug == data.slug && row.email == Some(data.email)
    ensures row.country == data.country && row.tier == data.tier && row.billingType == data.billingType
    ensures row.phone.Some? <==> Truthy(data.phone)
    ensures row.notes.Some? <==> Truthy(data.notes)
    ensures row.website.Some? <==> Truthy(data.website)
    ensures row.industry.Some? <==> Truthy(data.industry)
    ensures row.companySize.Some? <==> Truthy(data.companySize)
    ensures row.contactName.Some? <==> Truthy(data.contactName)
    ensures row.contactEmail.Some? <==> Truthy(data.contactEmail)
    ensures Truthy(data.phone) ==> row.phone == data.phone
    ensures row.phone == OrNull(data.phone) && row.website == OrNull(data.website)
    ensures row.industry == OrNull(data.industry) && row.companySize == OrNull(data.companySize)
    ensures row.contactName == OrNull(data.contactName) && row.contactEmail == OrNull(data.contactEmail)
    ensures row.notes == OrNull(data.notes)
  {
    ClientRow(id, data.name, data.slug, Some(data.email), data.country, Active, data.billingType, data.tier,
      OrNull(data.phone), OrNull(data.website), OrNull(data.industry), OrNull(data.companySize),
      OrNull(data.contactName), OrNull(data.contactEmail), OrNull(data.notes))
  }

  /** How many rows have this slug. */
  function SlugCount(rows: seq<ClientRow>, slug: string): (n: nat)
    ensures n <= |rows|
    ensures n == 0 <==> forall i :: 0 <= i < |rows| ==> rows[i].slug != slug
  {
    if rows == [] then 0
    else (if rows[0].slug == slug then 1 else 0) + SlugCount(rows[1..], slug)
  }

  /** How many rows have this e-mail. */
  function EmailCount(rows: seq<ClientRow>, email: string): (n: nat)
    ensures n <= |rows|
    ensures n == 0 <==> forall i :: 0 <= i < |rows| ==> rows[i].email != Some(email)
  {
    if rows == [] then 0
    else (if rows[0].email == Some(email) then 1 else 0) + EmailCount(rows[1..], email)
  }

  /** `eq(...).maybeSingle()` finds a row only when exactly one matches (and
      nothing when the query fails). */
  predicate Found(count: nat, lookupFails: bool)
  {
    !lookupFails && count == 1
  }

  /** No two rows share a slug, and no two share an e-mail. */
  predicate UniqueKeys(rows: seq<ClientRow>)
  {
    forall i, j :: 0 <= i < j < |rows| ==>
      rows[i].slug != rows[j].slug && (rows[i].email.Some? ==> rows[i].email != rows[j].email)
  }

  /** `newStatus` of `toggleClientStatus`. */
  function Flip(s: ClientStatus): (r: ClientStatus)
    ensures r != s
  {
    if s == Active then Paused else Active
  }

  lemma FlipTwice(s: ClientStatus)
    ensures Flip(Flip(s)) == s
  {
  }

  /** `update({ status }).eq('id', id)`: the rows with that id get the status. */
  function WithStatus(rows: seq<ClientRow>, id: string, s: ClientStatus): (r: seq<ClientRow>)
    ensures |r| == |rows|
    ensures forall i :: 0 <= i < |rows| ==> r[i] == (if rows[i].id == id then rows[i].(status := s) else rows[i])
  {
    seq(|rows|, i requires 0 <= i < |rows| => if rows[i].id == id then rows[i].(status := s) else rows[i])
  }

  /** `delete().eq('id', id)`: every row with another id stays, as often as
      before, and no row with that id does.
      The same filter as `Partners.Without`, over this table's rows. */
  function Without(rows: seq<ClientRow>, id: string): (r: seq<ClientRow>)
    ensures |r| <= |rows|
    ensures forall x :: x in r <==> x in rows && x.id != id
    ensures forall x :: multiset(r)[x] == (if x.id != id then multiset(rows)[x] else 0)
  {
    if rows == [] then []
    else
      assert multiset(rows) == multiset([rows[0]]) + multiset(rows[1..]) by {
        assert rows == [rows[0]] + rows[1..];
      }
      (if rows[0].id == id then [] else [rows[0]]) + Without(rows[1..], id)
  }

  /** A new row with a fresh slug and e-mail keeps the keys unique. */
  lemma {:induction false} AppendKeepsUnique(rows: seq<ClientRow>, row: ClientRow)
    requires UniqueKeys(rows)
    requires SlugCount(rows, row.slug) == 0
    requires row.email.Some? ==> EmailCount(rows, row.email.value) == 0
    ensures UniqueKeys(rows + [row])
  {
    var all := rows + [row];
    forall i, j | 0 <= i < j < |all|
      ensures all[i].slug != all[j].slug && (all[i].email.Some? ==> all[i].email != all[j].email)
    {
      if j == |rows| {
        assert all[i] == rows[i] && all[j] == row;
      } else {
        assert all[i] == rows[i] && all[j] == rows[j];
      }
    }
  }

  /** With unique keys, a slug or e-mail that is on file is on exactly one
      row, so the duplicate checks catch every duplicate. */
  lemma {:induction false} UniqueCountsAtMostOne(rows: seq<ClientRow>, slug: string, email: string)
    requires UniqueKeys(rows)
    ensures SlugCount(rows, slug) <= 1 && EmailCount(rows, email) <= 1
    decreases |rows|
  {
    if rows != [] {
      var tail := rows[1..];
      assert UniqueKeys(tail) by {
        forall i, j | 0 <= i < j < |tail|
          ensures tail[i].slug != tail[j].slug && (tail[i].email.Some? ==> tail[i].email != tail[j].email)
        {
          assert tail[i] == rows[i + 1] && tail[j] == rows[j + 1];
        }
      }
      UniqueCountsAtMostOne(tail, slug, email);
      if rows[0].slug == slug {
        assert forall i :: 0 <= i < |tail| ==> tail[i].slug != slug by {
          forall i | 0 <= i < |tail|
            ensures tail[i].slug != slug
          {
            assert tail[i] == rows[i + 1];
          }
        }
      }
      if rows[0].email == Some(email) {
        assert forall i :: 0 <= i < |tail| ==> tail[i].email != Some(email) by {
          forall i | 0 <= i < |tail|
            ensures tail[i].email != Some(email)
          {
            assert tail[i] == rows[i + 1];
          }
        }
      }
    }
  }

  /** A table whose keys hold two rows with the same slug defeats the slug
      check: `maybeSingle` finds nothing and the insert goes ahead. */
  lemma DuplicatePairIsNotFound(a: ClientRow, b: ClientRow)
    requires a.slug == b.slug
    ensures !Found(SlugCount([a, b], a.slug), false)
  {
    assert [a, b][1..] == [b];
    assert [b][1..] == [];
  }

  /** The `clients` table. */
  class ClientStore {
    var rows: seq<ClientRow>

    constructor()
      ensures rows == []
    {
      rows := [];
    }

    /** `createClient`. The slug is checked first, then the e-mail, then the
        insert; a failed lookup finds nothing. Nothing is written unless the
        result is a success, and then exactly the new row is appended. */
    method CreateClient(data: NewClient, newId: string, slugLookupFails: bool, emailLookupFails: bool, insertFails: bool)
      returns (result: Outcome<ClientRow>)
      modifies this
      ensures Found(SlugCount(old(rows), data.slug), slugLookupFails) ==>
        result == Failure("Slug already exists") && rows == old(rows)
      ensures !Found(SlugCount(old(rows), data.slug), slugLookupFails) && Found(EmailCount(old(rows), data.email), emailLookupFails) ==>
        result == Failure("Email already registered") && rows == old(rows)
      ensures !Found(SlugCount(old(rows), data.slug), slugLookupFails) && !Found(EmailCount(old(rows), data.email), emailLookupFails) ==>
        if insertFails then result == Failure("Failed to create client") && rows == old(rows)
        else result == Success(NewRow(data, newId)) && rows == old(rows) + [NewRow(data, newId)]
      ensures old(UniqueKeys(rows)) && !slugLookupFails && !emailLookupFails ==> UniqueKeys(rows)
    {
      if Found(SlugCount(rows, data.slug), slugLookupFails) {
        return Failure("Slug already exists");
      }
      if Found(EmailCount(rows, data.email), emailLookupFails) {
        return Failure("Email already registered");
      }
      if insertFails {
        return Failure("Failed to create client");
      }
      var row := NewRow(data, newId);
      if UniqueKeys(rows) && !slugLookupFails && !emailLookupFails {
        UniqueCountsAtMostOne(rows, data.slug, data.email);
        AppendKeepsUnique(rows, row);
      }
      rows := rows + [row];
      result := Success(row);
    }

    /** `toggleClientStatus`: the client gets the opposite of the status the
        caller passed; a store error is thrown. */
    method ToggleClientStatus(clientId: string, currentStatus: ClientStatus, updateFails: bool)
      returns (result: Outcome<ClientStatus>)
      modifies this
      ensures updateFails ==> result == Failure("Failed to update client status") && rows == old(rows)
      ensures !updateFails ==> result == Success(Flip(currentStatus)) && rows == WithStatus(old(rows), clientId, Flip(currentStatus))
    {
      var newStatus := if currentStatus == Active then Paused else Active;
      if updateFails {
        return Failure("Failed to update client status");
      }
      rows := WithStatus(rows, clientId, newStatus);
      result := Success(newStatus);
    }

    /** `deleteClient`; a store error is thrown. */
    method DeleteClient(clientId: string, deleteFails: bool) returns (result: Outcome<()>)
      modifies this
      ensures deleteFails ==> result == Failure("Failed to delete client") && rows == old(rows)
      ensures !deleteFails ==> result == Success(()) && rows == Without(old(rows), clientId)
    {
      if deleteFails {
        return Failure("Failed to delete client");
      }
      rows := Without(rows, clientId);
      result := Success(());
    }
  }

  /** Toggling twice with the status the first toggle returned restores the
      client's status. */
  lemma ToggleTwiceRestores(rows: seq<ClientRow>, id: string, s: ClientStatus)
    requires forall i :: 0 <= i < |rows| && rows[i].id == id ==> rows[i].status == s
    ensures WithStatus(WithStatus(rows, id, Flip(s)), id, Flip(Flip(s))) == rows
  {
    var twice := WithStatus(WithStatus(rows, id, Flip(s)), id, Flip(Flip(s)));
    assert forall i :: 0 <= i < |rows| ==> twice[i] == rows[i];
  }
}

=== FILE: common.dfy ===
/** Small value-level helpers shared by the modules below: optional values,
    JavaScript's `x || null` on optional strings, substring search,
    ASCII lower-casing and the decimal rendering of naturals. */
module Common {

  datatype Option<T> = None | Some(value: T)

  /** A server action's answer: `{ success: true, ... }` or
      `{ success: false, error }`; an error the action throws is a failure
      too. */
  datatype Outcome<T> = Success(value: T) | Failure(error: string)

  /** Concatenation is associative; called to regroup a chain of `+`. */
  lemma Assoc<T>(a: seq<T>, b: seq<T>, c: seq<T>)
    ensures a + b + c == a + (b + c)
  {
  }

  /** A JavaScript string that may be absent is "truthy" when present and non-empty. */
  predicate Truthy(o: Option<string>)
  {
    o.Some? && o.value != ""
  }

  /** `x || null` on an optional string: absent and empty both become null. */
  function OrNull(o: Option<string>): (r: Option<string>)
    ensures r.Some? <==> Truthy(o)
    ensures r.Some? ==> r == o
  {
    if Truthy(o) then o else None
  }

  /** `p` occurs somewhere in `s` (JavaScript's `s.includes(p)`). */
  predicate Occurs(p: string, s: string)
  {
    exists i :: 0 <= i <= |s| - |p| && p <= s[i..]
  }

  lemma OccursAt(p: string, s: string, i: int)
    requires 0 <= i <= |s| - |p| && p <= s[i..]
    ensures Occurs(p, s)
  {
  }

  /** The middle part of a concatenation occurs in it. */
  lemma OccursMiddle(a: string, b: string, c: string)
    ensures Occurs(b, a + b + c)
  {
    assert b <= (a + b + c)[|a|..];
    OccursAt(b, a + b + c, |a|);
  }

  /** An occurrence in a suffix is an occurrence in the whole string. */
  lemma OccursInSuffix(p: string, s: string, k: nat)
    requires k <= |s| && Occurs(p, s[k..])
    ensures Occurs(p, s)
  {
    var i :| 0 <= i <= |s[k..]| - |p| && p <= s[k..][i..];
    assert s[k..][i..] == s[k + i..];
    OccursAt(p, s, k + i);
  }

  function LowerChar(c: char): (r: char)
    ensures 'A' <= c <= 'Z' ==> 'a' <= r <= 'z'
    ensures !('A' <= c <= 'Z') ==> r == c
  {
    if 'A' <= c <= 'Z' then (c as int + 32) as char else c
  }

  /** `toLowerCase()`, restricted to the ASCII letters. */
  function Lower(s: string): (r: string)
    ensures |r| == |s|
    ensures forall i :: 0 <= i < |s| ==> r[i] == LowerChar(s[i])
  {
    seq(|s|, i requires 0 <= i < |s| => LowerChar(s[i]))
  }

  predicate IsDigit(c: char)
  {
    '0' <= c <= '9'
  }

  predicate AllDigits(s: string)
  {
    forall i :: 0 <= i < |s| ==> IsDigit(s[i])
  }

  function DigitChar(d: nat): (c: char)
    requires d < 10
    ensures IsDigit(c) && c as int - '0' as int == d
  {
    ('0' as int + d) as char
  }

  /** The value of a string of decimal digits, most significant first. */
  function ParseDecimal(s: string): nat
    requires AllDigits(s)
  {
    if s == [] then 0
    else 10 * ParseDecimal(s[..|s| - 1]) + (s[|s| - 1] as int - '0' as int)
  }

  /** The shortest decimal rendering of `n` (JavaScript's `String(n)` on a
      non-negative integer): digits only, no leading zero, and it reads back as `n`. */
  function NatToString(n: nat): (r: string)
    ensures |r| > 0 && AllDigits(r)
    ensures r[0] == '0' ==> n == 0
    ensures ParseDecimal(r) == n
  {
    if n < 10 then [DigitChar(n)]
    else
      var prefix := NatToString(n / 10);
      var r := prefix + [DigitChar(n % 10)];
      assert r[..|r| - 1] == prefix;
      r
  }
}

=== FILE: layout.dfy ===
/** The proposal document generator: `generateProposalPDF` lays a fixed
    sequence of sections out on one A4 portrait page (ISO 216, 210 x 297 mm)
    with a single vertical cursor. The jsPDF document is modelled as the log
    of the items drawn on it, each with its coordinates in millimetres. */
module ProposalGenerator {
  import opened Common

  datatype Region = BR | US | EU
  datatype Language = PtBR | En | Es

  /** The generator's input (`ProposalData`). */
  datatype ProposalData = ProposalData(
    clientName: string,
    businessType: Option<string>,
    region: Region,
    language: Language,
    currency: string,
    setupFee: nat,
    monthlyFee: nat,
    deliveryDays: string)

  const PageWidth := 210
  const PageHeight := 297
  const Margin := 20
  const ContentWidth := PageWidth - 2 * Margin
  const HeaderBandHeight := 40
  const FooterBandHeight := 20

  datatype Align = Left | Center | Right

  /** One drawing call on the document. Colours, fonts and line widths are
      not recorded; an underline keeps the title whose rendered width sizes it,
      and a paragraph keeps the width it is wrapped to. */
  datatype Item =
    | FillRect(x: int, y: int, w: int, h: int)
    | Card(x: int, y: int, w: int, h: int, outlined: bool)
    | Bullet(x: int, y: int)
    | Underline(x: int, y: int, text: string)
    | Label(text: string, x: int, y: int, align: Align)
    | Paragraph(text: string, x: int, y: int, width: int)

  /** The jsPDF document: created empty, then drawn on call after call. */
  class Document {
    const pageWidth: int
    const pageHeight: int
    var items: seq<Item>

    constructor A4Portrait()
      ensures pageWidth == PageWidth && pageHeight == PageHeight
      ensures items == []
    {
      pageWidth := PageWidth;
      pageHeight := PageHeight;
      items := [];
    }

    method Draw(item: Item)
      modifies this
      ensures items == old(items) + [item]
    {
      items := items + [item];
    }
  }

  // ---------------------------------------------------------------------
  // Localized copy. Every text choice in the generator is the ternary
  // `data.language === 'pt-BR' ? pt : en`; `Copy` gathers what one language
  // selects, so the layout below is written once over its fields.

  datatype Pillar = Pillar(title: string, desc: string)

  datatype Copy = Copy(
    title: string,
    forText: string,
    challengeHeading: string,
    challenge: string,
    solutionHeading: string,
    solution: string,
    pillarsHeading: string,
    pillars: seq<Pillar>,
    investmentHeading: string,
    setupLabel: string,
    monthlyLabel: string,
    perMonth: string,
    deliveryHeading: string,
    deliverySuffix: string,
    disclaimer: string)

  const PortugueseCopy := Copy(
    "Proposta de Infraestrutura Digital",
    "Para:",
    "1. O Desafio",
    "O cliente moderno busca agilidade. Cardápios em PDF ou sites lentos fazem você perder vendas.",
    "2. A Solução: GWS App-Site",
    "Uma tecnologia que se comporta como aplicativo, mas é acessada instantaneamente. Não ocupa espaço no celular e não precisa baixar nada.",
    "3. Os 4 Pilares",
    [ Pillar("Identidade Inteligente", "Wi-Fi, WhatsApp e Localização num toque"),
      Pillar("Vitrine Interativa", "Seu catálogo ou menu com visual de elite"),
      Pillar("Parceiros de Confiança", "Sua rede de indicações"),
      Pillar("Perfil do Negócio", "Sua história para gerar conexão real") ],
    "4. Investimento",
    "Taxa de Ativação:",
    "Manutenção:",
    "/mês",
    "5. Entrega",
    " para o Portal Digital + Placa Inteligente C0RVEX",
    "O prazo pode variar de acordo com a demanda e complexidade.")

  const EnglishCopy := Copy(
    "Digital Infrastructure & Experience Proposal",
    "For:",
    "1. The Challenge",
    "In a globalized market, customers demand speed. Traditional PDFs or heavy apps create friction.",
    "2. The Solution: GWS App-Site",
    "A high-performance portal that behaves like a native app but requires zero downloads and zero storage space.",
    "3. The 4 Pillars",
    [ Pillar("Smart Identity", "Instant Wi-Fi, WhatsApp, and Location"),
      Pillar("Interactive Showcase", "Multilingual menu/catalog with premium visuals"),
      Pillar("Trusted Partners", "A verified network of your local recommendations"),
      Pillar("Business Legacy", "Your story and team to build trust") ],
    "4. Investment",
    "Setup Fee:",
    "Maintenance:",
    "/month",
    "5. Delivery",
    " for Digital Portal + GWS Smart Access Plate",
    "Timeline may vary depending on demand and complexity.")

  /** The texts the generator's ternaries select for `l`: Portuguese for
      pt-BR and English for every other language, Spanish included. */
  function CopyFor(l: Language): (c: Copy)
    ensures |c.pillars| == 4
    ensures c == PortugueseCopy <==> l == PtBR
    ensures c == EnglishCopy <==> l != PtBR
  {
    assert PortugueseCopy.forText != EnglishCopy.forText by {
      assert PortugueseCopy.forText[0] != EnglishCopy.forText[0];
    }
    if l == PtBR then PortugueseCopy else EnglishCopy
  }

  const FooterText := "C0RVEX Command Center • GWS Ecosystem"

  /** `${currency} ${fee.toFixed(2)}` for a whole-number fee: the currency,
      one space, the decimal digits of the fee and ".00". */
  function FeeText(currency: string, fee: nat): (r: string)
    ensures |r| >= |currency| + 5
    ensures r[..|currency| + 1] == currency + " "
    ensures r[|r| - 3..] == ".00"
    ensures AllDigits(r[|currency| + 1..|r| - 3])
    ensures ParseDecimal(r[|currency| + 1..|r| - 3]) == fee
    ensures r[|currency| + 1..|r| - 3] == NatToString(fee)
  {
    var digits := NatToString(fee);
    var r := currency + " " + digits + ".00";
    assert r[|currency| + 1..|r| - 3] == digits;
    r
  }

  // ---------------------------------------------------------------------
  // Geometry of a list of drawn items.

  /** Items are drawn top to bottom: no item sits above an earlier one. */
  predicate Ordered(items: seq<Item>)
  {
    forall i, j :: 0 <= i < j < |items| ==> items[i].y <= items[j].y
  }

  predicate Within(items: seq<Item>, lo: int, hi: int)
  {
    forall i :: 0 <= i < |items| ==> lo <= items[i].y <= hi
  }

  /** Two ordered runs, the first entirely above the second, make an ordered run. */
  lemma OrderedAppend(a: seq<Item>, b: seq<Item>, lo1: int, hi1: int, lo2: int, hi2: int)
    requires Ordered(a) && Within(a, lo1, hi1)
    requires Ordered(b) && Within(b, lo2, hi2)
    requires lo1 <= hi1 <= lo2 <= hi2
    ensures Ordered(a + b) && Within(a + b, lo1, hi2)
  {
    forall i, j | 0 <= i < j < |a + b|
      ensures (a + b)[i].y <= (a + b)[j].y
    {
      if j < |a| {
      } else if i >= |a| {
        assert (a + b)[i] == b[i - |a|] && (a + b)[j] == b[j - |a|];
      } else {
        assert (a + b)[j] == b[j - |a|];
      }
    }
  }

  // ---------------------------------------------------------------------
  // The reference layout. Each block is given relative to the cursor value
  // at which it starts; the page puts them at fixed cursor values.

  function HeaderItems(): seq<Item>
  {
    [ FillRect(0, 0, PageWidth, PageHeight),
      FillRect(0, 0, PageWidth, HeaderBandHeight),
      Label("C0RVEX", PageWidth / 2, 20, Center),
      Label("GWS Command Center", PageWidth / 2, 27, Center) ]
  }

  /** `addSection`: the title at the cursor and its underline 1 mm below. */
  function SectionItems(title: string, x: int, y: int): seq<Item>
  {
    [Label(title, x, y, Left), Underline(x, y + 1, title)]
  }

  function IntroItems(c: Copy, clientName: string, y: int): seq<Item>
  {
    [ Label(c.title, Margin, y, Left),
      Label(c.forText + " " + clientName, Margin, y + 10, Left) ]
  }

  function ChallengeItems(c: Copy, y: int): seq<Item>
  {
    SectionItems(c.challengeHeading, Margin, y) + [Paragraph(c.challenge, Margin + 5, y + 8, ContentWidth)]
  }

  function SolutionItems(c: Copy, y: int): seq<Item>
  {
    SectionItems(c.solutionHeading, Margin, y) + [Paragraph(c.solution, Margin + 5, y + 8, ContentWidth)]
  }

  function PillarCard(p: Pillar, y: int): seq<Item>
  {
    [ Card(Margin, y - 5, ContentWidth, 15, false),
      Bullet(Margin + 5, y),
      Label(p.title, Margin + 10, y + 1, Left),
      Label(p.desc, Margin + 10, y + 6, Left) ]
  }

  /** The pillar cards, the k-th one with its cursor at `y + 20 * k`. */
  function PillarCards(ps: seq<Pillar>, y: int): seq<Item>
  {
    if ps == [] then []
    else PillarCards(ps[..|ps| - 1], y) + PillarCard(ps[|ps| - 1], y + 20 * (|ps| - 1))
  }

  function PillarSectionItems(c: Copy, y: int): seq<Item>
  {
    SectionItems(c.pillarsHeading, Margin, y) + PillarCards(c.pillars, y + 8)
  }

  function PriceCard(c: Copy, currency: string, setupFee: nat, monthlyFee: nat, y: int): seq<Item>
  {
    [ Card(Margin, y - 3, ContentWidth, 25, true),
      Label(c.setupLabel, Margin + 5, y + 5, Left),
      Label(FeeText(currency, setupFee), PageWidth - Margin - 5, y + 5, Right),
      Label(c.monthlyLabel, Margin + 5, y + 12, Left),
      Label(FeeText(currency, monthlyFee) + c.perMonth, PageWidth - Margin - 5, y + 12, Right) ]
  }

  function InvestmentItems(c: Copy, currency: string, setupFee: nat, monthlyFee: nat, y: int): seq<Item>
  {
    SectionItems(c.investmentHeading, Margin, y) + PriceCard(c, currency, setupFee, monthlyFee, y + 8)
  }

  function DeliveryItems(c: Copy, deliveryDays: string, y: int): seq<Item>
  {
    SectionItems(c.deliveryHeading, Margin, y)
      + [ Paragraph(deliveryDays + c.deliverySuffix, Margin + 5, y + 8, ContentWidth),
          Label(c.disclaimer, Margin + 5, y + 18, Left) ]
  }

  /** The footer band and its text, placed from the bottom edge, not from the cursor. */
  function FooterItems(): seq<Item>
  {
    [ FillRect(0, PageHeight - FooterBandHeight, PageWidth, FooterBandHeight),
      Label(FooterText, PageWidth / 2, PageHeight - 10, Center) ]
  }

  /** The first three sections from the cursor value `y`: title and
      greeting, the challenge 25 below, the solution 23 further down. */
  function TopItems(c: Copy, clientName: string, y: int): seq<Item>
  {
    IntroItems(c, clientName, y) + ChallengeItems(c, y + 25) + SolutionItems(c, y + 48)
  }

  /** The last three sections from the cursor value `y`: the pillars, the
      investment after the cards (20 apart, then 5 more), the delivery 38
      further down. */
  function BottomItems(c: Copy, d: ProposalData, y: int): seq<Item>
  {
    var pillarsEnd := y + 8 + 20 * |c.pillars| + 5;
    PillarSectionItems(c, y)
      + InvestmentItems(c, d.currency, d.setupFee, d.monthlyFee, pillarsEnd)
      + DeliveryItems(c, d.deliveryDays, pillarsEnd + 38)
  }

  /** Everything the cursor places, from the title at 50 down to the
      disclaimer; the pillar section starts at 126. */
  function BodyItems(c: Copy, d: ProposalData): seq<Item>
  {
    TopItems(c, d.clientName, 50) + BottomItems(c, d, 126)
  }

  /** The page drawn with the copy `c`, in drawing order. */
  function Layout(c: Copy, d: ProposalData): seq<Item>
  {
    HeaderItems() + BodyItems(c, d) + FooterItems()
  }

  /** The whole page for `d`. */
  function ProposalItems(d: ProposalData): seq<Item>
  {
    Layout(CopyFor(d.language), d)
  }

  /** The values the cursor `y` takes when there are `n` pillar cards. */
  function PageCursor(n: nat): seq<int>
  {
    [50, 60, 75, 83, 98, 106, 126, 134] + seq(n, k => 134 + 20 * (k + 1)) + [139 + 20 * n, 147 + 20 * n, 177 + 20 * n, 185 + 20 * n, 195 + 20 * n]
  }

  lemma FourPillarCursor()
    ensures PageCursor(4) == CursorTrace
  {
  }

  /** The single vertical cursor only moves down the page, whatever the
      number of pillar cards. */
  lemma CursorMovesDown(n: nat)
    ensures forall i, j :: 0 <= i < j < |PageCursor(n)| ==> PageCursor(n)[i] < PageCursor(n)[j]
  {
    var c := PageCursor(n);
    forall i | 0 <= i < |c| - 1
      ensures c[i] < c[i + 1]
    {
      if 7 <= i < 7 + n {
        assert c[i + 1] == 134 + 20 * (i - 6);
      }
    }
    StepsIncreasing(c);
  }

  /** A sequence that grows at every step grows between any two places. */
  lemma {:induction false} StepsIncreasing(c: seq<int>)
    requires forall i :: 0 <= i < |c| - 1 ==> c[i] < c[i + 1]
    ensures forall i, j :: 0 <= i < j < |c| ==> c[i] < c[j]
    decreases |c|
  {
    if |c| >= 2 {
      var d := c[..|c| - 1];
      StepsIncreasing(d);
      forall i, j | 0 <= i < j < |c|
        ensures c[i] < c[j]
      {
        if j < |c| - 1 {
          assert c[i] == d[i] && c[j] == d[j];
        } else if i < j - 1 {
          assert c[i] == d[i] && c[j - 1] == d[j - 1];
        }
      }
    }
  }

  /** The values the cursor `y` takes, in order. */
  const CursorTrace: seq<int> :=
    [50, 60, 75, 83, 98, 106, 126, 134, 154, 174, 194, 214, 219, 227, 257, 265, 275]

  // ---------------------------------------------------------------------
  // The generator itself, one drawing method per section of the page.
  // Each returns the new cursor and, as a ghost, the cursor values it set.

  /** `addSection`: draws the title and its underline, returns `y + 8`. */
  method AddSection(doc: Document, y: int, margin: int, pageWidth: int, title: string) returns (next: int)
    modifies doc
    ensures next == y + 8
    ensures doc.items == old(doc.items) + SectionItems(title, margin, y)
  {
    doc.Draw(Label(title, margin, y, Left));
    doc.Draw(Underline(margin, y + 1, title));
    next := y + 8;
  }

  method DrawHeader(doc: Document)
    requires doc.pageWidth == PageWidth && doc.pageHeight == PageHeight
    modifies doc
    ensures doc.items == old(doc.items) + HeaderItems()
  {
    doc.Draw(FillRect(0, 0, doc.pageWidth, doc.pageHeight));
    doc.Draw(FillRect(0, 0, doc.pageWidth, 40));
    doc.Draw(Label("C0RVEX", doc.pageWidth / 2, 20, Center));
    doc.Draw(Label("GWS Command Center", doc.pageWidth / 2, 27, Center));
  }

  method DrawIntro(doc: Document, c: Copy, clientName: string, y: int) returns (next: int, ghost trace: seq<int>)
    requires doc.pageWidth == PageWidth && doc.pageHeight == PageHeight
    modifies doc
    ensures next == y + 25 && trace == [y + 10, y + 25]
    ensures doc.items == old(doc.items) + IntroItems(c, clientName, y)
  {
    doc.Draw(Label(c.title, Margin, y, Left));
    next := y + 10;
    trace := [next];
    doc.Draw(Label(c.forText + " " + clientName, Margin, next, Left));
    next := next + 15;
    trace := trace + [next];
  }

  method DrawChallenge(doc: Document, c: Copy, y: int) returns (next: int, ghost trace: seq<int>)
    requires doc.pageWidth == PageWidth && doc.pageHeight == PageHeight
    modifies doc
    ensures next == y + 23 && trace == [y + 8, y + 23]
    ensures doc.items == old(doc.items) + ChallengeItems(c, y)
  {
    next := AddSection(doc, y, Margin, doc.pageWidth, c.challengeHeading);
    trace := [next];
    doc.Draw(Paragraph(c.challenge, Margin + 5, next, doc.pageWidth - 2 * Margin));
    next := next + 15;
    trace := trace + [next];
  }

  method DrawSolution(doc: Document, c: Copy, y: int) returns (next: int, ghost trace: seq<int>)
    requires doc.pageWidth == PageWidth && doc.pageHeight == PageHeight
    modifies doc
    ensures next == y + 28 && trace == [y + 8, y + 28]
    ensures doc.items == old(doc.items) + SolutionItems(c, y)
  {
    next := AddSection(doc, y, Margin, doc.pageWidth, c.solutionHeading);
    trace := [next];
    doc.Draw(Paragraph(c.solution, Margin + 5, next, doc.pageWidth - 2 * Margin));
    next := next + 20;
    trace := trace + [next];
  }

  /** The `pillars.forEach` loop: one card per pillar, the cursor moving 20
      after each. */
  method DrawPillarCards(doc: Document, pillars: seq<Pillar>, y: int) returns (next: int, ghost trace: seq<int>)
    requires doc.pageWidth == PageWidth && doc.pageHeight == PageHeight
    modifies doc
    ensures next == y + 20 * |pillars|
    ensures trace == seq(|pillars|, k => y + 20 * (k + 1))
    ensures doc.items == old(doc.items) + PillarCards(pillars, y)
  {
    next := y;
    trace := [];
    var i := 0;
    while i < |pillars|
      invariant 0 <= i <= |pillars|
      invariant next == y + 20 * i
      invariant doc.items == old(doc.items) + PillarCards(pillars[..i], y)
      invariant trace == seq(i, k => y + 20 * (k + 1))
    {
      var pillar := pillars[i];
      doc.Draw(Card(Margin, next - 5, doc.pageWidth - 2 * Margin, 15, false));
      doc.Draw(Bullet(Margin + 5, next));
      doc.Draw(Label(pillar.title, Margin + 10, next + 1, Left));
      doc.Draw(Label(pillar.desc, Margin + 10, next + 6, Left));
      assert pillars[..i + 1][..i] == pillars[..i];
      next := next + 20;
      trace := trace + [next];
      i := i + 1;
    }
    assert pillars[..i] == pillars;
  }

  /** Section 3: its heading, the cards, then 5 more. */
  method DrawPillars(doc: Document, c: Copy, y: int) returns (next: int, ghost trace: seq<int>)
    requires doc.pageWidth == PageWidth && doc.pageHeight == PageHeight
    modifies doc
    ensures next == y + 8 + 20 * |c.pillars| + 5
    ensures trace == [y + 8] + seq(|c.pillars|, k => y + 8 + 20 * (k + 1)) + [next]
    ensures doc.items == old(doc.items) + PillarSectionItems(c, y)
  {
    next := AddSection(doc, y, Margin, doc.pageWidth, c.pillarsHeading);
    trace := [next];
    ghost var cards;
    next, cards := DrawPillarCards(doc, c.pillars, next);
    trace := trace + cards;
    next := next + 5;
    trace := trace + [next];
  }

  method DrawInvestment(doc: Document, c: Copy, data: ProposalData, y: int) returns (next: int, ghost trace: seq<int>)
    requires doc.pageWidth == PageWidth && doc.pageHeight == PageHeight
    modifies doc
    ensures next == y + 38 && trace == [y + 8, y + 38]
    ensures doc.items == old(doc.items) + InvestmentItems(c, data.currency, data.setupFee, data.monthlyFee, y)
  {
    next := AddSection(doc, y, Margin, doc.pageWidth, c.investmentHeading);
    trace := [next];
    var right := doc.pageWidth - Margin - 5;
    doc.Draw(Card(Margin, next - 3, doc.pageWidth - 2 * Margin, 25, true));
    doc.Draw(Label(c.setupLabel, Margin + 5, next + 5, Left));
    doc.Draw(Label(FeeText(data.currency, data.setupFee), right, next + 5, Right));
    doc.Draw(Label(c.monthlyLabel, Margin + 5, next + 12, Left));
    doc.Draw(Label(FeeText(data.currency, data.monthlyFee) + c.perMonth, right, next + 12, Right));
    next := next + 30;
    trace := trace + [next];
  }

  method DrawDelivery(doc: Document, c: Copy, deliveryDays: string, y: int) returns (next: int, ghost trace: seq<int>)
    requires doc.pageWidth == PageWidth && doc.pageHeight == PageHeight
    modifies doc
    ensures next == y + 18 && trace == [y + 8, y + 18]
    ensures doc.items == old(doc.items) + DeliveryItems(c, deliveryDays, y)
  {
    next := AddSection(doc, y, Margin, doc.pageWidth, c.deliveryHeading);
    trace := [next];
    doc.Draw(Paragraph(deliveryDays + c.deliverySuffix, Margin + 5, next, doc.pageWidth - 2 * Margin));
    next := next + 10;
    trace := trace + [next];
    doc.Draw(Label(c.disclaimer, Margin + 5, next, Left));
  }

  method DrawFooter(doc: Document)
    requires doc.pageWidth == PageWidth && doc.pageHeight == PageHeight
    modifies doc
    ensures doc.items == old(doc.items) + FooterItems()
  {
    doc.Draw(FillRect(0, doc.pageHeight - 20, doc.pageWidth, 20));
    doc.Draw(Label(FooterText, doc.pageWidth / 2, doc.pageHeight - 10, Center));
  }

  /** Sections 0 to 2 of `generateProposalPDF`, from the cursor value `y`. */
  method DrawTop(doc: Document, c: Copy, clientName: string, y: int) returns (next: int, ghost trace: seq<int>)
    requires doc.pageWidth == PageWidth && doc.pageHeight == PageHeight
    modifies doc
    ensures next == y + 76
    ensures trace == [y + 10, y + 25, y + 33, y + 48, y + 56, y + 76]
    ensures doc.items == old(doc.items) + TopItems(c, clientName, y)
  {
    ghost var top := doc.items;
    ghost var t;
    next, trace := DrawIntro(doc, c, clientName, y);
    next, t := DrawChallenge(doc, c, next);
    trace := trace + t;
    Assoc(top, IntroItems(c, clientName, y), ChallengeItems(c, y + 25));
    next, t := DrawSolution(doc, c, next);
    trace := trace + t;
    Assoc(top, IntroItems(c, clientName, y) + ChallengeItems(c, y + 25), SolutionItems(c, y + 48));
  }

  /** Sections 3 to 5 of `generateProposalPDF`, from the cursor value `y`. */
  method DrawBottom(doc: Document, c: Copy, data: ProposalData, y: int) returns (next: int, ghost trace: seq<int>)
    requires doc.pageWidth == PageWidth && doc.pageHeight == PageHeight
    modifies doc
    ensures next == y + 69 + 20 * |c.pillars|
    ensures trace == [y + 8] + seq(|c.pillars|, k => y + 8 + 20 * (k + 1))
      + [y + 13 + 20 * |c.pillars|, y + 21 + 20 * |c.pillars|, y + 51 + 20 * |c.pillars|,
         y + 59 + 20 * |c.pillars|, y + 69 + 20 * |c.pillars|]
    ensures doc.items == old(doc.items) + BottomItems(c, data, y)
  {
    ghost var top := doc.items;
    ghost var t;
    next, trace := DrawPillars(doc, c, y);
    var pillarsEnd := next;
    next, t := DrawInvestment(doc, c, data, next);
    trace := trace + t;
    Assoc(top, PillarSectionItems(c, y), InvestmentItems(c, data.currency, data.setupFee, data.monthlyFee, pillarsEnd));
    next, t := DrawDelivery(doc, c, data.deliveryDays, next);
    trace := trace + t;
    Assoc(top, PillarSectionItems(c, y) + InvestmentItems(c, data.currency, data.setupFee, data.monthlyFee, pillarsEnd),
      DeliveryItems(c, data.deliveryDays, pillarsEnd + 38));
  }

  /** The five sections of `generateProposalPDF`, drawn down the cursor
      from 50; `cursor` holds the values the cursor takes after 50. */
  method DrawBody(doc: Document, c: Copy, data: ProposalData) returns (ghost cursor: seq<int>)
    requires doc.pageWidth == PageWidth && doc.pageHeight == PageHeight
    modifies doc
    ensures doc.items == old(doc.items) + BodyItems(c, data)
    ensures [50] + cursor == PageCursor(|c.pillars|)
  {
    ghost var top := doc.items;
    var y := 50;
    ghost var lower;
    y, cursor := DrawTop(doc, c, data.clientName, y);
    y, lower := DrawBottom(doc, c, data, y);
    cursor := cursor + lower;
    Assoc(top, TopItems(c, data.clientName, 50), BottomItems(c, data, 126));
  }

  /** The page for the copy `c`: header, body, footer. */
  method DrawPage(doc: Document, c: Copy, data: ProposalData) returns (ghost cursor: seq<int>)
    requires doc.pageWidth == PageWidth && doc.pageHeight == PageHeight
    modifies doc
    ensures doc.items == old(doc.items) + Layout(c, data)
    ensures cursor == PageCursor(|c.pillars|)
  {
    ghost var start := doc.items;
    DrawHeader(doc);
    cursor := DrawBody(doc, c, data);
    cursor := [50] + cursor;
    DrawFooter(doc);
    Assoc(start, HeaderItems(), BodyItems(c, data));
    Assoc(start, HeaderItems() + BodyItems(c, data), FooterItems());
  }

  /** `generateProposalPDF`: a fresh A4 page with the layout for `data`.
      The ghost `cursor` records each value the cursor `y` takes. */
  method GenerateProposalPdf(data: ProposalData) returns (doc: Document, ghost cursor: seq<int>)
    ensures fresh(doc)
    ensures doc.pageWidth == PageWidth && doc.pageHeight == PageHeight
    ensures doc.items == ProposalItems(data)
    ensures cursor == CursorTrace
  {
    doc := new Document.A4Portrait();
    var c := CopyFor(data.language);
    cursor := DrawPage(doc, c, data);
    FourPillarCursor();
    assert [] + Layout(c, data) == Layout(c, data);
  }

  // ---------------------------------------------------------------------
  // Properties of the layout.

  lemma PillarCardGeometry(p: Pillar, y: int)
    ensures Ordered(PillarCard(p, y)) && Within(PillarCard(p, y), y - 5, y + 6)
  {
  }

  /** The pillar cards: four items per pillar, drawn top to bottom, from 5
      above the first card's cursor to 6 below the last one's. */
  lemma {:induction false} PillarCardsGeometry(ps: seq<Pillar>, y: int)
    ensures |PillarCards(ps, y)| == 4 * |ps|
    ensures Ordered(PillarCards(ps, y))
    ensures Within(PillarCards(ps, y), y - 5, y + 20 * |ps| - 14)
    decreases |ps|
  {
    if ps != [] {
      var n := |ps|;
      var init := ps[..n - 1];
      var cy := y + 20 * (n - 1);
      var front := PillarCards(init, y);
      var card := PillarCard(ps[n - 1], cy);
      assert PillarCards(ps, y) == front + card;
      PillarCardGeometry(ps[n - 1], cy);
      PillarCardsGeometry(init, y);
      if n == 1 {
        OrderedAppend(front, card, y - 5, y - 5, cy - 5, cy + 6);
      } else {
        OrderedAppend(front, card, y - 5, cy - 14, cy - 5, cy + 6);
      }
    }
  }

  lemma SectionGeometry(title: string, x: int, y: int)
    ensures Ordered(SectionItems(title, x, y)) && Within(SectionItems(title, x, y), y, y + 1)
  {
  }

  lemma IntroGeometry(c: Copy, clientName: string, y: int)
    ensures Ordered(IntroItems(c, clientName, y)) && Within(IntroItems(c, clientName, y), y, y + 10)
  {
  }

  lemma ChallengeGeometry(c: Copy, y: int)
    ensures Ordered(ChallengeItems(c, y)) && Within(ChallengeItems(c, y), y, y + 8)
  {
    SectionGeometry(c.challengeHeading, Margin, y);
    OrderedAppend(SectionItems(c.challengeHeading, Margin, y), [Paragraph(c.challenge, Margin + 5, y + 8, ContentWidth)], y, y + 1, y + 8, y + 8);
  }

  lemma SolutionGeometry(c: Copy, y: int)
    ensures Ordered(SolutionItems(c, y)) && Within(SolutionItems(c, y), y, y + 8)
  {
    SectionGeometry(c.solutionHeading, Margin, y);
    OrderedAppend(SectionItems(c.solutionHeading, Margin, y), [Paragraph(c.solution, Margin + 5, y + 8, ContentWidth)], y, y + 1, y + 8, y + 8);
  }

  lemma PillarSectionGeometry(c: Copy, y: int)
    requires |c.pillars| > 0
    ensures Ordered(PillarSectionItems(c, y)) && Within(PillarSectionItems(c, y), y, y + 20 * |c.pillars| - 6)
  {
    SectionGeometry(c.pillarsHeading, Margin, y);
    PillarCardsGeometry(c.pillars, y + 8);
    OrderedAppend(SectionItems(c.pillarsHeading, Margin, y), PillarCards(c.pillars, y + 8), y, y + 1, y + 3, y + 20 * |c.pillars| - 6);
  }

  lemma InvestmentGeometry(c: Copy, currency: string, setupFee: nat, monthlyFee: nat, y: int)
    ensures Ordered(InvestmentItems(c, currency, setupFee, monthlyFee, y))
    ensures Within(InvestmentItems(c, currency, setupFee, monthlyFee, y), y, y + 20)
  {
    SectionGeometry(c.investmentHeading, Margin, y);
    var card := PriceCard(c, currency, setupFee, monthlyFee, y + 8);
    assert Ordered(card) && Within(card, y + 5, y + 20);
    OrderedAppend(SectionItems(c.investmentHeading, Margin, y), card, y, y + 1, y + 5, y + 20);
  }

  lemma DeliveryGeometry(c: Copy, deliveryDays: string, y: int)
    ensures Ordered(DeliveryItems(c, deliveryDays, y)) && Within(DeliveryItems(c, deliveryDays, y), y, y + 18)
  {
    SectionGeometry(c.deliveryHeading, Margin, y);
    var tail := [ Paragraph(deliveryDays + c.deliverySuffix, Margin + 5, y + 8, ContentWidth),
                  Label(c.disclaimer, Margin + 5, y + 18, Left) ];
    OrderedAppend(SectionItems(c.deliveryHeading, Margin, y), tail, y, y + 1, y + 8, y + 18);
  }

  lemma TopGeometry(c: Copy, clientName: string, y: int)
    ensures Ordered(TopItems(c, clientName, y)) && Within(TopItems(c, clientName, y), y, y + 56)
  {
    var intro := IntroItems(c, clientName, y);
    IntroGeometry(c, clientName, y);
    ChallengeGeometry(c, y + 25);
    SolutionGeometry(c, y + 48);
    OrderedAppend(intro, ChallengeItems(c, y + 25), y, y + 10, y + 25, y + 33);
    OrderedAppend(intro + ChallengeItems(c, y + 25), SolutionItems(c, y + 48), y, y + 33, y + 48, y + 56);
  }

  lemma BottomGeometry(c: Copy, d: ProposalData, y: int)
    requires |c.pillars| > 0
    ensures Ordered(BottomItems(c, d, y)) && Within(BottomItems(c, d, y), y, y + 69 + 20 * |c.pillars|)
  {
    var n := |c.pillars|;
    var e := y + 13 + 20 * n;
    var pillars := PillarSectionItems(c, y);
    var investment := InvestmentItems(c, d.currency, d.setupFee, d.monthlyFee, e);
    PillarSectionGeometry(c, y);
    InvestmentGeometry(c, d.currency, d.setupFee, d.monthlyFee, e);
    DeliveryGeometry(c, d.deliveryDays, e + 38);
    OrderedAppend(pillars, investment, y, y + 20 * n - 6, e, e + 20);
    OrderedAppend(pillars + investment, DeliveryItems(c, d.deliveryDays, e + 38), y, e + 20, e + 38, e + 56);
  }

  /** The body: the sections follow each other down the page without
      overlapping, from the title at 50 to the disclaimer. */
  lemma BodyGeometry(c: Copy, d: ProposalData)
    requires |c.pillars| > 0
    ensures Ordered(BodyItems(c, d))
    ensures Within(BodyItems(c, d), 50, 195 + 20 * |c.pillars|)
  {
    TopGeometry(c, d.clientName, 50);
    BottomGeometry(c, d, 126);
    OrderedAppend(TopItems(c, d.clientName, 50), BottomItems(c, d, 126), 50, 106, 126, 195 + 20 * |c.pillars|);
  }

  /** With up to four pillars the page is drawn top to bottom, everything
      inside the page, and every item before the footer lies above the
      footer band: the body never runs into it. */
  lemma LayoutGeometry(c: Copy, d: ProposalData)
    requires 0 < |c.pillars| <= 4
    ensures Ordered(Layout(c, d)) && Within(Layout(c, d), 0, PageHeight)
    ensures Within(HeaderItems() + BodyItems(c, d), 0, PageHeight - FooterBandHeight - 2)
  {
    var n := |c.pillars|;
    assert Ordered(HeaderItems()) && Within(HeaderItems(), 0, 27);
    assert Ordered(FooterItems()) && Within(FooterItems(), PageHeight - FooterBandHeight, PageHeight - 10);
    BodyGeometry(c, d);
    OrderedAppend(HeaderItems(), BodyItems(c, d), 0, 27, 50, 195 + 20 * n);
    OrderedAppend(HeaderItems() + BodyItems(c, d), FooterItems(), 0, 195 + 20 * n, PageHeight - FooterBandHeight, PageHeight - 10);
  }

  /** The generated page: ordered, on the page, clear of the footer band. */
  lemma ProposalGeometry(d: ProposalData)
    ensures Ordered(ProposalItems(d)) && Within(ProposalItems(d), 0, PageHeight)
    ensures |ProposalItems(d)| == 43
    ensures Within(ProposalItems(d)[..41], 0, PageHeight - FooterBandHeight - 2)
    ensures ProposalItems(d)[41] == FillRect(0, PageHeight - FooterBandHeight, PageWidth, FooterBandHeight)
  {
    var c := CopyFor(d.language);
    LayoutGeometry(c, d);
    PillarCardsGeometry(c.pillars, 134);
    assert ProposalItems(d)[..41] == HeaderItems() + BodyItems(c, d);
  }

  /** The heights of the bullet points, top to bottom. */
  function BulletYs(items: seq<Item>): seq<int>
  {
    if items == [] then []
    else BulletYs(items[..|items| - 1]) + (if items[|items| - 1].Bullet? then [items[|items| - 1].y] else [])
  }

  lemma {:induction false} BulletYsAppend(a: seq<Item>, b: seq<Item>)
    ensures BulletYs(a + b) == BulletYs(a) + BulletYs(b)
    decreases |b|
  {
    if b == [] {
      assert a + b == a;
    } else {
      assert (a + b)[..|a + b| - 1] == a + b[..|b| - 1];
      BulletYsAppend(a, b[..|b| - 1]);
    }
  }

  lemma {:induction false} NoBullets(items: seq<Item>)
    requires forall i :: 0 <= i < |items| ==> !items[i].Bullet?
    ensures BulletYs(items) == []
    decreases |items|
  {
    if items != [] {
      NoBullets(items[..|items| - 1]);
    }
  }

  lemma PillarCardBullet(p: Pillar, y: int)
    ensures BulletYs(PillarCard(p, y)) == [y]
  {
    var card := PillarCard(p, y);
    assert card == card[..1] + card[1..2] + card[2..];
    BulletYsAppend(card[..1] + card[1..2], card[2..]);
    BulletYsAppend(card[..1], card[1..2]);
    NoBullets(card[..1]);
    NoBullets(card[2..]);
    assert card[1..2][..0] == [];
    assert BulletYs(card[1..2]) == BulletYs([]) + [y];
  }

  /** The heights of `n` pillar cards drawn from `y` on, 20 mm apart. */
  function CardRows(n: nat, y: int): seq<int>
  {
    seq(n, k => y + 20 * k)
  }

  /** One bullet per pillar, the k-th at `y + 20 * k`. */
  lemma {:induction false} PillarCardsBullets(ps: seq<Pillar>, y: int)
    ensures BulletYs(PillarCards(ps, y)) == CardRows(|ps|, y)
    decreases |ps|
  {
    if ps != [] {
      var n := |ps|;
      var cy := y + 20 * (n - 1);
      var front := PillarCards(ps[..n - 1], y);
      var card := PillarCard(ps[n - 1], cy);
      assert PillarCards(ps, y) == front + card;
      PillarCardsBullets(ps[..n - 1], y);
      BulletYsAppend(front, card);
      PillarCardBullet(ps[n - 1], cy);
      assert CardRows(n - 1, y) + [cy] == CardRows(n, y);
    }
  }

  /** Blocks without bullets around a block add no bullets to it. */
  lemma BulletsAround(a: seq<Item>, b: seq<Item>, c: seq<Item>, d: seq<Item>)
    requires BulletYs(a) == [] && BulletYs(c) == [] && BulletYs(d) == []
    ensures BulletYs(a + b + c + d) == BulletYs(b)
  {
    BulletYsAppend(a, b);
    BulletYsAppend(a + b, c);
    BulletYsAppend(a + b + c, d);
  }

  /** The only bullets on the page are the pillar cards', one per pillar,
      20 apart from 134 down. */
  lemma BottomBullets(c: Copy, d: ProposalData, y: int)
    ensures BulletYs(BottomItems(c, d, y)) == CardRows(|c.pillars|, y + 8)
  {
    var e := y + 13 + 20 * |c.pillars|;
    var section := SectionItems(c.pillarsHeading, Margin, y);
    var cards := PillarCards(c.pillars, y + 8);
    var investment := InvestmentItems(c, d.currency, d.setupFee, d.monthlyFee, e);
    var delivery := DeliveryItems(c, d.deliveryDays, e + 38);
    assert BottomItems(c, d, y) == section + cards + investment + delivery;
    SectionNoBullets(c.pillarsHeading, y);
    InvestmentNoBullets(c, d, e);
    DeliveryNoBullets(c, d, e + 38);
    PillarCardsBullets(c.pillars, y + 8);
    BulletsAround(section, cards, investment, delivery);
  }

  lemma SectionNoBullets(title: string, y: int)
    ensures BulletYs(SectionItems(title, Margin, y)) == []
  {
    NoBullets(SectionItems(title, Margin, y));
  }

  lemma InvestmentNoBullets(c: Copy, d: ProposalData, y: int)
    ensures BulletYs(InvestmentItems(c, d.currency, d.setupFee, d.monthlyFee, y)) == []
  {
    NoBullets(InvestmentItems(c, d.currency, d.setupFee, d.monthlyFee, y));
  }

  lemma DeliveryNoBullets(c: Copy, d: ProposalData, y: int)
    ensures BulletYs(DeliveryItems(c, d.deliveryDays, y)) == []
  {
    NoBullets(DeliveryItems(c, d.deliveryDays, y));
  }

  /** The bullet points on the page are those of the pillar cards, one per
      pillar, 20 apart from 134 down. */
  lemma LayoutBullets(c: Copy, d: ProposalData)
    ensures BulletYs(Layout(c, d)) == CardRows(|c.pillars|, 134)
  {
    var top := TopItems(c, d.clientName, 50);
    NoBullets(HeaderItems());
    NoBullets(top);
    NoBullets(FooterItems());
    BottomBullets(c, d, 126);
    BulletYsAppend(top, BottomItems(c, d, 126));
    BulletYsAppend(HeaderItems(), BodyItems(c, d));
    BulletYsAppend(HeaderItems() + BodyItems(c, d), FooterItems());
  }

  lemma ProposalBullets(d: ProposalData)
    ensures BulletYs(ProposalItems(d)) == [134, 154, 174, 194]
  {
    LayoutBullets(CopyFor(d.language), d);
  }

  /** An item with its text left out: what kind of item is drawn, where, and
      at what size. */
  function Place(it: Item): (p: Item)
    ensures p.x == it.x && p.y == it.y
    ensures p.FillRect? == it.FillRect? && p.Card? == it.Card? && p.Bullet? == it.Bullet?
    ensures p.Underline? == it.Underline? && p.Label? == it.Label? && p.Paragraph? == it.Paragraph?
  {
    match it
    case Underline(x, y, _) => Underline(x, y, "")
    case Label(_, x, y, align) => Label("", x, y, align)
    case Paragraph(_, x, y, width) => Paragraph("", x, y, width)
    case _ => it
  }

  /** Two item lists draw the same kinds of items, of the same sizes, at the
      same coordinates; only their texts may differ. */
  predicate SamePlaces(a: seq<Item>, b: seq<Item>)
  {
    |a| == |b| && forall i :: 0 <= i < |a| ==> Place(a[i]) == Place(b[i])
  }

  lemma SamePlacesAppend(a1: seq<Item>, b1: seq<Item>, a2: seq<Item>, b2: seq<Item>)
    requires SamePlaces(a1, b1) && SamePlaces(a2, b2)
    ensures SamePlaces(a1 + a2, b1 + b2)
  {
    forall i | 0 <= i < |a1 + a2|
      ensures Place((a1 + a2)[i]) == Place((b1 + b2)[i])
    {
      if i >= |a1| {
        assert (a1 + a2)[i] == a2[i - |a1|] && (b1 + b2)[i] == b2[i - |b1|];
      }
    }
  }

  lemma PillarCardPlaces(p1: Pillar, p2: Pillar, y: int)
    ensures SamePlaces(PillarCard(p1, y), PillarCard(p2, y))
  {
  }

  lemma {:induction false} PillarCardsPlaces(ps1: seq<Pillar>, ps2: seq<Pillar>, y: int)
    requires |ps1| == |ps2|
    ensures SamePlaces(PillarCards(ps1, y), PillarCards(ps2, y))
    decreases |ps1|
  {
    if ps1 != [] {
      var n := |ps1|;
      var cy := y + 20 * (n - 1);
      var front1, front2 := PillarCards(ps1[..n - 1], y), PillarCards(ps2[..n - 1], y);
      var card1, card2 := PillarCard(ps1[n - 1], cy), PillarCard(ps2[n - 1], cy);
      assert PillarCards(ps1, y) == front1 + card1;
      assert PillarCards(ps2, y) == front2 + card2;
      PillarCardsPlaces(ps1[..n - 1], ps2[..n - 1], y);
      PillarCardPlaces(ps1[n - 1], ps2[n - 1], cy);
      SamePlacesAppend(front1, front2, card1, card2);
    }
  }

  lemma TopPlaces(c1: Copy, n1: string, c2: Copy, n2: string, y: int)
    ensures SamePlaces(TopItems(c1, n1, y), TopItems(c2, n2, y))
  {
    SamePlacesAppend(IntroItems(c1, n1, y), IntroItems(c2, n2, y), ChallengeItems(c1, y + 25), ChallengeItems(c2, y + 25));
    SamePlacesAppend(IntroItems(c1, n1, y) + ChallengeItems(c1, y + 25), IntroItems(c2, n2, y) + ChallengeItems(c2, y + 25),
      SolutionItems(c1, y + 48), SolutionItems(c2, y + 48));
  }

  lemma PillarSectionPlaces(c1: Copy, c2: Copy, y: int)
    requires |c1.pillars| == |c2.pillars|
    ensures SamePlaces(PillarSectionItems(c1, y), PillarSectionItems(c2, y))
  {
    PillarCardsPlaces(c1.pillars, c2.pillars, y + 8);
    SamePlacesAppend(SectionItems(c1.pillarsHeading, Margin, y), SectionItems(c2.pillarsHeading, Margin, y),
      PillarCards(c1.pillars, y + 8), PillarCards(c2.pillars, y + 8));
  }

  lemma InvestmentPlaces(c1: Copy, d1: ProposalData, c2: Copy, d2: ProposalData, y: int)
    ensures SamePlaces(InvestmentItems(c1, d1.currency, d1.setupFee, d1.monthlyFee, y),
                       InvestmentItems(c2, d2.currency, d2.setupFee, d2.monthlyFee, y))
  {
  }

  lemma DeliveryPlaces(c1: Copy, d1: ProposalData, c2: Copy, d2: ProposalData, y: int)
    ensures SamePlaces(DeliveryItems(c1, d1.deliveryDays, y), DeliveryItems(c2, d2.deliveryDays, y))
  {
  }

  lemma BottomPlaces(c1: Copy, d1: ProposalData, c2: Copy, d2: ProposalData, y: int)
    requires |c1.pillars| == |c2.pillars|
    ensures SamePlaces(BottomItems(c1, d1, y), BottomItems(c2, d2, y))
  {
    var e := y + 13 + 20 * |c1.pillars|;
    var p1, p2 := PillarSectionItems(c1, y), PillarSectionItems(c2, y);
    var i1 := InvestmentItems(c1, d1.currency, d1.setupFee, d1.monthlyFee, e);
    var i2 := InvestmentItems(c2, d2.currency, d2.setupFee, d2.monthlyFee, e);
    var v1, v2 := DeliveryItems(c1, d1.deliveryDays, e + 38), DeliveryItems(c2, d2.deliveryDays, e + 38);
    PillarSectionPlaces(c1, c2, y);
    InvestmentPlaces(c1, d1, c2, d2, e);
    DeliveryPlaces(c1, d1, c2, d2, e + 38);
    SamePlacesAppend(p1, p2, i1, i2);
    SamePlacesAppend(p1 + i1, p2 + i2, v1, v2);
  }

  /** The body's coordinates depend only on the number of pillars. */
  lemma BodyPlaces(c1: Copy, d1: ProposalData, c2: Copy, d2: ProposalData)
    requires |c1.pillars| == |c2.pillars|
    ensures SamePlaces(BodyItems(c1, d1), BodyItems(c2, d2))
  {
    TopPlaces(c1, d1.clientName, c2, d2.clientName, 50);
    BottomPlaces(c1, d1, c2, d2, 126);
    SamePlacesAppend(TopItems(c1, d1.clientName, 50), TopItems(c2, d2.clientName, 50), BottomItems(c1, d1, 126), BottomItems(c2, d2, 126));
  }

  /** The coordinates of everything drawn depend only on the number of
      pillars: neither the client, the fees nor the language move anything. */
  lemma LayoutPlaces(c1: Copy, d1: ProposalData, c2: Copy, d2: ProposalData)
    requires |c1.pillars| == |c2.pillars|
    ensures SamePlaces(Layout(c1, d1), Layout(c2, d2))
  {
    BodyPlaces(c1, d1, c2, d2);
    SamePlacesAppend(HeaderItems(), HeaderItems(), BodyItems(c1, d1), BodyItems(c2, d2));
    SamePlacesAppend(HeaderItems() + BodyItems(c1, d1), HeaderItems() + BodyItems(c2, d2), FooterItems(), FooterItems());
  }

  lemma ProposalPlaces(d1: ProposalData, d2: ProposalData)
    ensures SamePlaces(ProposalItems(d1), ProposalItems(d2))
  {
    LayoutPlaces(CopyFor(d1.language), d1, CopyFor(d2.language), d2);
  }

  /** Two item lists that agree everywhere except at position `k`. */
  predicate DifferOnlyAt(a: seq<Item>, b: seq<Item>, k: int)
  {
    |a| == |b| && forall i :: 0 <= i < |a| && i != k ==> a[i] == b[i]
  }

  lemma DifferOnlyAtPrefix(h: seq<Item>, a: seq<Item>, b: seq<Item>, k: int)
    requires DifferOnlyAt(a, b, k)
    ensures DifferOnlyAt(h + a, h + b, |h| + k)
  {
    forall i | 0 <= i < |h + a| && i != |h| + k && i >= |h|
      ensures (h + a)[i] == (h + b)[i]
    {
      assert (h + a)[i] == a[i - |h|] && (h + b)[i] == b[i - |h|];
    }
  }

  lemma DifferOnlyAtSuffix(a: seq<Item>, b: seq<Item>, t: seq<Item>, k: int)
    requires DifferOnlyAt(a, b, k)
    ensures DifferOnlyAt(a + t, b + t, k)
  {
    forall i | 0 <= i < |a + t| && i != k && i >= |a|
      ensures (a + t)[i] == (b + t)[i]
    {
      assert (a + t)[i] == t[i - |a|] && (b + t)[i] == t[i - |b|];
    }
  }

  /** The first three sections for two client names differ in the greeting
      line only. */
  lemma TopDiffersInGreeting(c: Copy, n1: string, n2: string, y: int)
    ensures DifferOnlyAt(TopItems(c, n1, y), TopItems(c, n2, y), 1)
  {
    DifferOnlyAtSuffix(IntroItems(c, n1, y), IntroItems(c, n2, y), ChallengeItems(c, y + 25), 1);
    DifferOnlyAtSuffix(IntroItems(c, n1, y) + ChallengeItems(c, y + 25), IntroItems(c, n2, y) + ChallengeItems(c, y + 25),
      SolutionItems(c, y + 48), 1);
  }

  /** The client's name appears in one place only, the "For:" line (the
      sixth item drawn): pages for two names differ there and nowhere else. */
  lemma OnlyGreetingNamesClient(c: Copy, d: ProposalData, name: string)
    ensures DifferOnlyAt(Layout(c, d), Layout(c, d.(clientName := name)), 5)
    ensures Layout(c, d)[5] == Label(c.forText + " " + d.clientName, Margin, 60, Left)
  {
    var d2 := d.(clientName := name);
    var bottom := BottomItems(c, d, 126);
    assert BottomItems(c, d2, 126) == bottom;
    TopDiffersInGreeting(c, d.clientName, name, 50);
    DifferOnlyAtSuffix(TopItems(c, d.clientName, 50), TopItems(c, name, 50), bottom, 1);
    DifferOnlyAtPrefix(HeaderItems(), BodyItems(c, d), BodyItems(c, d2), 1);
    DifferOnlyAtSuffix(HeaderItems() + BodyItems(c, d), HeaderItems() + BodyItems(c, d2), FooterItems(), 5);
    var intro := IntroItems(c, d.clientName, 50);
    assert TopItems(c, d.clientName, 50)[1] == intro[1];
  }

  /** The price card shows both fees, right-aligned, the monthly one with
      the per-month suffix. */
  lemma BottomPrices(c: Copy, d: ProposalData, y: int)
    requires |c.pillars| == 4
    ensures |BottomItems(c, d, y)| == 29
    ensures BottomItems(c, d, y)[22] == Label(FeeText(d.currency, d.setupFee), PageWidth - Margin - 5, y + 106, Right)
    ensures BottomItems(c, d, y)[24] == Label(FeeText(d.currency, d.monthlyFee) + c.perMonth, PageWidth - Margin - 5, y + 113, Right)
  {
    PillarCardsGeometry(c.pillars, y + 8);
    var pillars := PillarSectionItems(c, y);
    var investment := InvestmentItems(c, d.currency, d.setupFee, d.monthlyFee, y + 93);
    assert |pillars| == 18 && |investment| == 7;
    assert (pillars + investment)[22] == investment[4];
    assert (pillars + investment)[24] == investment[6];
  }

  /** The price card shows both fees, right-aligned, the monthly one with
      the per-month suffix. */
  lemma ProposalPrices(d: ProposalData)
    ensures |ProposalItems(d)| == 43
    ensures ProposalItems(d)[34] == Label(FeeText(d.currency, d.setupFee), PageWidth - Margin - 5, 232, Right)
    ensures ProposalItems(d)[36] == Label(FeeText(d.currency, d.monthlyFee) + CopyFor(d.language).perMonth, PageWidth - Margin - 5, 239, Right)
  {
    var c := CopyFor(d.language);
    BottomPrices(c, d, 126);
    var top := TopItems(c, d.clientName, 50);
    var bottom := BottomItems(c, d, 126);
    assert |top| == 8;
    assert (top + bottom)[30] == bottom[22] && (top + bottom)[32] == bottom[24];
    var upper := HeaderItems() + BodyItems(c, d);
    assert |upper| == 41;
    assert upper[34] == BodyItems(c, d)[30] && upper[36] == BodyItems(c, d)[32];
    assert ProposalItems(d) == upper + FooterItems();
  }

  /** Spanish is rendered in English: every text choice tests for pt-BR only. */
  lemma SpanishRendersEnglish(d: ProposalData)
    ensures ProposalItems(d.(language := Es)) == ProposalItems(d.(language := En))
  {
    assert CopyFor(Es) == CopyFor(En);
  }
}

=== FILE: partners.dfy ===
/** The partner server actions: `createPartner` checks that a vendor has no
    client and every other partner has one, builds the contact record from
    the non-empty contact fields and inserts an active partner;
    `togglePartnerStatus` writes the negation of the status it is given. */
module Partners {
  import opened Common

  datatype PartnerType = Supplier | Integration | Network | Vendor

  /** The form's data (`CreatePartnerData`); a field that is left out is
      `None`. The contract value is a JavaScript number, here an integer. */
  datatype NewPartner = NewPartner(
    name: string,
    category: string,
    partnerType: PartnerType,
    clientId: Option<string>,
    email: Option<string>,
    phone: Option<string>,
    website: Option<string>,
    contractValue: Option<int>,
    contractStartDate: Option<string>,
    contractEndDate: Option<string>,
    integrationStatus: Option<string>,
    notes: Option<string>)

  /** A row of the `partners` table (timestamps left out). */
  datatype PartnerRow = PartnerRow(
    id: string,
    name: string,
    category: string,
    partnerType: PartnerType,
    clientId: Option<string>,
    contactInfo: map<string, string>,
    website: Option<string>,
    contractValue: Option<int>,
    contractStartDate: Option<string>,
    contractEndDate: Option<string>,
    integrationStatus: Option<string>,
    active: bool)

  const VendorWithClient := "Vendor partners cannot be assigned to a client"
  const MissingClient := "Please select a client for this partner"

  /** The two checks before anything is written, in the source's order. */
  function Validate(data: NewPartner): (error: Option<string>)
    ensures error == Some(VendorWithClient) <==> data.partnerType == Vendor && Truthy(data.clientId)
    ensures error == Some(MissingClient) <==> data.partnerType != Vendor && !Truthy(data.clientId)
    ensures error == None <==> (Truthy(data.clientId) <==> data.partnerType != Vendor)
  {
    if data.partnerType == Vendor && Truthy(data.clientId) then Some(VendorWithClient)
    else if data.partnerType != Vendor && !Truthy(data.clientId) then Some(MissingClient)
    else None
  }

  /** `x || null` on a number: absent and zero both become null. */
  function NumberOrNull(o: Option<int>): (r: Option<int>)
    ensures r.Some? <==> o.Some? && o.value != 0
    ensures r.Some? ==> r == o
  {
    if o.Some? && o.value != 0 then o else None
  }

  /** The contact record: a key for each of e-mail, phone and notes whose
      value is non-empty, holding that value, and no other key. */
  predicate IsContactInfo(data: NewPartner, info: map<string, string>)
  {
    info.Keys <= {"email", "phone", "notes"}
    && ("email" in info <==> Truthy(data.email))
    && ("phone" in info <==> Truthy(data.phone))
    && ("notes" in info <==> Truthy(data.notes))
    && (Truthy(data.email) ==> info["email"] == data.email.value)
    && (Truthy(data.phone) ==> info["phone"] == data.phone.value)
    && (Truthy(data.notes) ==> info["notes"] == data.notes.value)
  }

  /** `contactInfo`, built field by field as the source does. */
  method BuildContactInfo(data: NewPartner) returns (info: map<string, string>)
    ensures IsContactInfo(data, info)
  {
    info := map[];
    if Truthy(data.email) {
      info := info["email" := data.email.value];
    }
    if Truthy(data.phone) {
      info := info["phone" := data.phone.value];
    }
    if Truthy(data.notes) {
      info := info["notes" := data.notes.value];
    }
  }

  /** The row `createPartner` inserts: active, linked to the client when one
      was given, every falsy optional field null. */
  function NewPartnerRow(data: NewPartner, id: string, info: map<string, string>): (row: PartnerRow)
    ensures row.active && row.id == id && row.contactInfo == info
    ensures row.name == data.name && row.category == data.category && row.partnerType == data.partnerType
    ensures row.clientId.Some? <==> Truthy(data.clientId)
    ensures row.website.Some? <==> Truthy(data.website)
    ensures row.contractValue.Some? <==> data.contractValue.Some? && data.contractValue.value != 0
    ensures row.contractStartDate.Some? <==> Truthy(data.contractStartDate)
    ensures row.contractEndDate.Some? <==> Truthy(data.contractEndDate)
    ensures row.integrationStatus.Some? <==> Truthy(data.integrationStatus)
    ensures row.clientId == OrNull(data.clientId) && row.website == OrNull(data.website)
    ensures row.contractValue == NumberOrNull(data.contractValue)
    ensures row.contractStartDate == OrNull(data.contractStartDate) && row.contractEndDate == OrNull(data.contractEndDate)
    ensures row.integrationStatus == OrNull(data.integrationStatus)
  {
    PartnerRow(id, data.name, data.category, data.partnerType, OrNull(data.clientId), info,
      OrNull(data.website), NumberOrNull(data.contractValue), OrNull(data.contractStartDate),
      OrNull(data.contractEndDate), OrNull(data.integrationStatus), true)
  }

  /** Every vendor is unlinked and every other partner is linked to a client. */
  predicate ClientLinkRule(rows: seq<PartnerRow>)
  {
    forall i :: 0 <= i < |rows| ==> (rows[i].clientId.Some? <==> rows[i].partnerType != Vendor)
  }

  /** A partner that passes validation obeys the client-link rule. */
  lemma AcceptedRowLinksClient(data: NewPartner, id: string, info: map<string, string>)
    requires Validate(data) == None
    ensures NewPartnerRow(data, id, info).clientId.Some? <==> data.partnerType != Vendor
  {
  }

  /** `update({ active }).eq('id', id)`. */
  function WithActive(rows: seq<PartnerRow>, id: string, active: bool): (r: seq<PartnerRow>)
    ensures |r| == |rows|
    ensures forall i :: 0 <= i < |rows| ==> r[i] == (if rows[i].id == id then rows[i].(active := active) else rows[i])
  {
    seq(|rows|, i requires 0 <= i < |rows| => if rows[i].id == id then rows[i].(active := active) else rows[i])
  }

  /** `delete().eq('id', id)`: every row with another id stays, as often as
      before, and no row with that id does.
      The same filter as `Clients.Without`, over this table's rows. */
  function Without(rows: seq<PartnerRow>, id: string): (r: seq<PartnerRow>)
    ensures |r| <= |rows|
    ensures forall x :: x in r <==> x in rows && x.id != id
    ensures forall x :: multiset(r)[x] == (if x.id != id then multiset(rows)[x] else 0)
  {
    if rows == [] then []
    else
      assert multiset(rows) == multiset([rows[0]]) + multiset(rows[1..]) by {
        assert rows == [rows[0]] + rows[1..];
      }
      (if rows[0].id == id then [] else [rows[0]]) + Without(rows[1..], id)
  }

  /** Toggling keeps the client-link rule: only `active` changes. */
  lemma {:induction false} WithActiveKeepsLinks(rows: seq<PartnerRow>, id: string, active: bool)
    requires ClientLinkRule(rows)
    ensures ClientLinkRule(WithActive(rows, id, active))
  {
    var r := WithActive(rows, id, active);
    forall i | 0 <= i < |r|
      ensures r[i].clientId.Some? <==> r[i].partnerType != Vendor
    {
      assert r[i].clientId == rows[i].clientId && r[i].partnerType == rows[i].partnerType;
    }
  }

  /** The `partners` table. */
  class PartnerStore {
    var rows: seq<PartnerRow>

    constructor()
      ensures rows == []
    {
      rows := [];
    }

    /** `createPartner`. A rejected partner writes nothing; an accepted one is
        appended as one new row, unless the insert fails. The client-link
        rule of the table is kept. */
    method CreatePartner(data: NewPartner, newId: string, insertFails: bool) returns (result: Outcome<PartnerRow>)
      modifies this
      ensures Validate(data).Some? ==> result == Failure(Validate(data).value) && rows == old(rows)
      ensures Validate(data).None? && insertFails ==> result == Failure("Failed to create partner") && rows == old(rows)
      ensures Validate(data).None? && !insertFails ==>
        result.Success? && rows == old(rows) + [result.value]
        && IsContactInfo(data, result.value.contactInfo)
        && result.value == NewPartnerRow(data, newId, result.value.contactInfo)
      ensures old(ClientLinkRule(rows)) ==> ClientLinkRule(rows)
    {
      var error := Validate(data);
      if error.Some? {
        return Failure(error.value);
      }
      var info := BuildContactInfo(data);
      if insertFails {
        return Failure("Failed to create partner");
      }
      var row := NewPartnerRow(data, newId, info);
      AcceptedRowLinksClient(data, newId, info);
      rows := rows + [row];
      result := Success(row);
    }

    /** `togglePartnerStatus`: the partner's `active` becomes the negation of
        the status the caller passed. */
    method TogglePartnerStatus(partnerId: string, currentStatus: bool, updateFails: bool) returns (result: Outcome<()>)
      modifies this
      ensures updateFails ==> result == Failure("Failed to update partner status") && rows == old(rows)
      ensures !updateFails ==> result == Success(()) && rows == WithActive(old(rows), partnerId, !currentStatus)
      ensures old(ClientLinkRule(rows)) ==> ClientLinkRule(rows)
    {
      if updateFails {
        return Failure("Failed to update partner status");
      }
      if ClientLinkRule(rows) {
        WithActiveKeepsLinks(rows, partnerId, !currentStatus);
      }
      rows := WithActive(rows, partnerId, !currentStatus);
      result := Success(());
    }

    /** `deletePartner`; a store error is thrown. */
    method DeletePartner(partnerId: string, deleteFails: bool) returns (result: Outcome<()>)
      modifies this
      ensures deleteFails ==> result == Failure("Failed to delete partner") && rows == old(rows)
      ensures !deleteFails ==> result == Success(()) && rows == Without(old(rows), partnerId)
    {
      if deleteFails {
        return Failure("Failed to delete partner");
      }
      rows := Without(rows, partnerId);
      result := Success(());
    }
  }

  /** Toggling with the status just written restores the partner's status. */
  lemma ToggleTwiceRestores(rows: seq<PartnerRow>, id: string, current: bool)
    requires forall i :: 0 <= i < |rows| && rows[i].id == id ==> rows[i].active == current
    ensures WithActive(WithActive(rows, id, !current), id, !!current) == rows
  {
    var twice := WithActive(WithActive(rows, id, !current), id, !!current);
    assert forall i :: 0 <= i < |rows| ==> twice[i] == rows[i];
  }
}

=== FILE: proposals.dfy ===
/** The server actions of the sales flow: `generateProposal` looks the
    region up in the pricing table, draws the proposal and records it;
    `generatePitch` writes the outreach message, from a stored template or
    from a built-in fallback. */
module Proposals {
  import opened Common
  import opened Template
  import opened ProposalGenerator

  /** One entry of the regional pricing table. */
  datatype RegionConfig = RegionConfig(
    currency: string,
    setupFee: nat,
    monthlyFee: nat,
    language: Language,
    deliveryDays: string)

  /** The pricing table of `generateProposal`: Brazil pays in reais and reads
      Portuguese, the United States and Europe share the English copy and the
      lower fees and differ only in the currency sign. */
  function Config(r: Region): (cfg: RegionConfig)
    ensures cfg.language == PtBR <==> r == BR
    ensures cfg.language != Es
  {
    match r
    case BR => RegionConfig("R$", 497, 97, PtBR, "até 3 dias")
    case US => RegionConfig("$", 197, 29, En, "up to 3 days")
    case EU => RegionConfig("€", 197, 29, En, "up to 3 days")
  }

  /** Europe is the United States entry with the euro sign. */
  lemma EuropeIsUnitedStatesInEuros()
    ensures Config(EU) == Config(US).(currency := "€")
    ensures Config(BR).currency != Config(US).currency && Config(US).currency != Config(EU).currency
  {
  }

  /** The request both actions receive. */
  datatype ProposalRequest = ProposalRequest(
    clientName: string,
    businessType: Option<string>,
    region: Region,
    clientId: Option<string>)

  /** What `generateProposal` hands to the generator: the client's fields and
      the region's entry. */
  function DataFor(req: ProposalRequest): (d: ProposalData)
    ensures d.clientName == req.clientName && d.region == req.region
    ensures d.language == Config(req.region).language && d.currency == Config(req.region).currency
    ensures d.setupFee == Config(req.region).setupFee && d.monthlyFee == Config(req.region).monthlyFee
    ensures d.deliveryDays == Config(req.region).deliveryDays && d.businessType == req.businessType
  {
    var cfg := Config(req.region);
    ProposalData(req.clientName, req.businessType, req.region, cfg.language, cfg.currency,
      cfg.setupFee, cfg.monthlyFee, cfg.deliveryDays)
  }

  datatype ProposalStatus = Draft | Sent | Accepted | Rejected

  /** A row of the `proposals` table. */
  datatype ProposalRow = ProposalRow(
    id: string,
    clientId: Option<string>,
    clientName: string,
    businessType: Option<string>,
    region: Region,
    language: Language,
    currency: string,
    setupFee: nat,
    monthlyFee: nat,
    deliveryDays: string,
    status: ProposalStatus)

  /** The row `generateProposal` inserts, under the id the store assigns. */
  function RecordFor(req: ProposalRequest, id: string): (row: ProposalRow)
    ensures row.status == Draft && row.id == id
    ensures row.clientId.Some? <==> Truthy(req.clientId)
    ensures row.clientId.Some? ==> row.clientId == req.clientId
    ensures row.clientName == req.clientName && row.businessType == req.businessType && row.region == req.region
    ensures row.language == Config(req.region).language && row.currency == Config(req.region).currency
    ensures row.setupFee == Config(req.region).setupFee && row.monthlyFee == Config(req.region).monthlyFee
    ensures row.deliveryDays == Config(req.region).deliveryDays
  {
    var cfg := Config(req.region);
    ProposalRow(id, OrNull(req.clientId), req.clientName, req.businessType, req.region,
      cfg.language, cfg.currency, cfg.setupFee, cfg.monthlyFee, cfg.deliveryDays, Draft)
  }

  /** The `proposals` table. */
  class ProposalTable {
    var rows: seq<ProposalRow>

    constructor()
      ensures rows == []
    {
      rows := [];
    }

    /** `insert([...]).select().single()`: the new row and its id, or
        nothing when the store fails. */
    method Insert(row: ProposalRow, fails: bool) returns (inserted: Option<ProposalRow>)
      modifies this
      ensures fails ==> inserted == None && rows == old(rows)
      ensures !fails ==> inserted == Some(row) && rows == old(rows) + [row]
    {
      if fails {
        inserted := None;
      } else {
        rows := rows + [row];
        inserted := Some(row);
      }
    }
  }

  /** `{ success, pdfData, proposalId }`; the PDF is the log of drawn items. */
  datatype ProposalResponse = ProposalResponse(success: bool, pdf: seq<Item>, proposalId: Option<string>)

  /** `generateProposal`: the PDF is produced and returned whatever happens to
      the insert; a failed insert is only logged and leaves `proposalId` unset. */
  method GenerateProposal(req: ProposalRequest, table: ProposalTable, newId: string, insertFails: bool)
    returns (resp: ProposalResponse)
    modifies table
    ensures resp.success
    ensures resp.pdf == ProposalItems(DataFor(req))
    ensures insertFails ==> resp.proposalId == None && table.rows == old(table.rows)
    ensures !insertFails ==> resp.proposalId == Some(newId) && table.rows == old(table.rows) + [RecordFor(req, newId)]
  {
    var doc, cursor := GenerateProposalPdf(DataFor(req));
    var proposal := table.Insert(RecordFor(req, newId), insertFails);
    var proposalId := if proposal.Some? then Some(proposal.value.id) else None;
    resp := ProposalResponse(true, doc.items, proposalId);
  }

  // ---------------------------------------------------------------------
  // The pitch.

  /** The template language `generatePitch` asks for. */
  function PitchLanguage(r: Region): (l: Language)
    ensures l == PtBR <==> r == BR
    ensures l != Es
  {
    if r == BR then PtBR else En
  }

  /** `businessType || (BR ? 'negócio' : 'business')`: an empty business
      type counts as missing. */
  function EffectiveBusinessType(r: Region, businessType: Option<string>): (bt: string)
    ensures bt != ""
    ensures Truthy(businessType) ==> bt == businessType.value
    ensures !Truthy(businessType) ==> bt == (if r == BR then "negócio" else "business")
  {
    if Truthy(businessType) then businessType.value
    else if r == BR then "negócio" else "business"
  }

  /** The fixed text around the client's name and business type in the
      built-in pitch. */
  datatype PitchCopy = PitchCopy(greeting: string, opening: string, closing: string)

  const PortuguesePitch := PitchCopy(
    "Olá ",
    "!\n\nCriei um mockup visual do GWS App-Site para o seu ",
    ".\n\nÉ um portal que seus clientes acessam como se fosse um app, mas sem precisar baixar nada. Fica leve e rápido no celular.\n\nPreparei algumas imagens mostrando como ficaria. Posso te enviar?")

  const EnglishPitch := PitchCopy(
    "Hi ",
    "!\n\nI've created a visual mockup of a GWS App-Site for your ",
    ".\n\nIt's a portal your customers can access like an app, but without downloads. Fast and lightweight on any phone.\n\nI've prepared some preview images showing how it would look. Can I send them to you?")

  /** The pitch text around `clientName` and `businessType`. */
  function PitchText(copy: PitchCopy, clientName: string, businessType: string): (text: string)
    ensures copy.greeting <= text
    ensures Occurs(clientName, text) && Occurs(businessType, text)
  {
    var g, o, cl := copy.greeting, copy.opening, copy.closing;
    Assoc(g + clientName + o, businessType, cl);
    Assoc(g + clientName, o, businessType + cl);
    Assoc(g, clientName, o + (businessType + cl));
    OccursMiddle(g, clientName, o + (businessType + cl));
    OccursMiddle(g + clientName + o, businessType, cl);
    g + clientName + o + businessType + cl
  }

  /** The built-in pitch used when no template is found: Portuguese for
      Brazil, English otherwise, naming the client and the business type. */
  function FallbackPitch(r: Region, clientName: string, businessType: Option<string>): (text: string)
    ensures r == BR ==> PortuguesePitch.greeting <= text
    ensures r != BR ==> EnglishPitch.greeting <= text
    ensures Occurs(clientName, text)
    ensures Occurs(EffectiveBusinessType(r, businessType), text)
  {
    PitchText(if r == BR then PortuguesePitch else EnglishPitch, clientName, EffectiveBusinessType(r, businessType))
  }

  /** A row of the `templates` table. */
  datatype TemplateRow = TemplateRow(kind: string, language: Language, content: string)

  /** The rows `.eq('type', 'pitch').eq('language', l)` selects, in order. */
  function PitchTemplates(rows: seq<TemplateRow>, l: Language): (r: seq<TemplateRow>)
    ensures |r| <= |rows|
    ensures forall t :: t in r <==> t in rows && t.kind == "pitch" && t.language == l
    ensures forall t :: multiset(r)[t] == (if t.kind == "pitch" && t.language == l then multiset(rows)[t] else 0)
  {
    if rows == [] then []
    else
      assert multiset(rows) == multiset([rows[0]]) + multiset(rows[1..]) by {
        assert rows == [rows[0]] + rows[1..];
      }
      var head := if rows[0].kind == "pitch" && rows[0].language == l then [rows[0]] else [];
      head + PitchTemplates(rows[1..], l)
  }

  /** `.single()`: the content of the one matching row; no template when
      none or several rows match. */
  function SingleTemplate(rows: seq<TemplateRow>, l: Language): (content: Option<string>)
    ensures content.Some? <==> |PitchTemplates(rows, l)| == 1
    ensures content.Some? ==> TemplateRow("pitch", l, content.value) in rows
  {
    var matches := PitchTemplates(rows, l);
    if |matches| == 1 then
      assert matches[0] in matches;
      Some(matches[0].content)
    else None
  }

  /** Two stored copies of the same pitch template make `.single()` fail, so
      the fallback is used. */
  lemma DuplicateTemplateNoSingle(rows: seq<TemplateRow>, l: Language, t: TemplateRow)
    requires t.kind == "pitch" && t.language == l && multiset(rows)[t] >= 2
    ensures SingleTemplate(rows, l) == None
  {
    var r := PitchTemplates(rows, l);
    CountAtMostLength(r, t);
  }

  /** No element occurs in a sequence more often than the sequence is long. */
  lemma {:induction false} CountAtMostLength<T>(s: seq<T>, x: T)
    ensures multiset(s)[x] <= |s|
  {
    if s != [] {
      CountAtMostLength(s[1..], x);
      assert s == [s[0]] + s[1..];
    }
  }

  /** The variables `generatePitch` substitutes, in this order. */
  function PitchVariables(req: ProposalRequest): seq<Entry>
  {
    [Entry("CLIENT_NAME", req.clientName), Entry("BUSINESS_TYPE", EffectiveBusinessType(req.region, req.businessType))]
  }

  /** What `generatePitch` answers: the template for the region's language
      with the variables substituted, or the fallback when the store has no
      single such template. */
  function PitchFor(req: ProposalRequest, templates: seq<TemplateRow>): string
  {
    match SingleTemplate(templates, PitchLanguage(req.region))
    case None => FallbackPitch(req.region, req.clientName, req.businessType)
    case Some(content) => Substitute(content, PitchVariables(req))
  }

  datatype PitchResponse = PitchResponse(success: bool, pitchText: string)

  /** `generatePitch`; it always reports success. */
  method GeneratePitch(req: ProposalRequest, templates: seq<TemplateRow>) returns (resp: PitchResponse)
    ensures resp.success
    ensures resp.pitchText == PitchFor(req, templates)
  {
    var language := if req.region == BR then PtBR else En;
    var template := SingleTemplate(templates, language);
    if template.None? {
      return PitchResponse(true, FallbackPitch(req.region, req.clientName, req.businessType));
    }
    var pitchText := ReplaceVariables(template.value, PitchVariables(req));
    resp := PitchResponse(true, pitchText);
  }

  /** Without a template the pitch greets in the region's language and names
      the client and the business type, "negócio" or "business" when that is
      missing or empty. */
  lemma FallbackPitchContents(req: ProposalRequest, templates: seq<TemplateRow>)
    requires |PitchTemplates(templates, PitchLanguage(req.region))| != 1
    ensures req.region == BR ==> PortuguesePitch.greeting <= PitchFor(req, templates)
    ensures req.region != BR ==> EnglishPitch.greeting <= PitchFor(req, templates)
    ensures Occurs(req.clientName, PitchFor(req, templates))
    ensures Truthy(req.businessType) ==> Occurs(req.businessType.value, PitchFor(req, templates))
    ensures !Truthy(req.businessType) ==> Occurs(if req.region == BR then "negócio" else "business", PitchFor(req, templates))
  {
  }

  /** The pitch is written in the language the pricing table gives the region. */
  lemma PitchLanguageAgrees(r: Region)
    ensures PitchLanguage(r) == Config(r).language
  {
  }

  /** `{{BUSINESS_TYPE}}` has no `{` after its opening pair. */
  lemma BusinessTypeTailBraceFree()
    ensures forall i :: 0 <= i < |Placeholder("BUSINESS_TYPE")[2..]| ==> Placeholder("BUSINESS_TYPE")[2..][i] != '{'
  {
    assert Placeholder("BUSINESS_TYPE")[2..] == "BUSINESS_TYPE}}";
  }

  /** `{{BUSINESS_TYPE}}` is not mistaken for `{{CLIENT_NAME}}`. */
  lemma BusinessTypeSurvivesNamePass(c: string, v: string)
    requires forall i :: 0 <= i < |c| ==> c[i] != '{'
    ensures ReplaceAll(Placeholder("BUSINESS_TYPE") + c, Placeholder("CLIENT_NAME"), v) == Placeholder("BUSINESS_TYPE") + c
  {
    var name := Placeholder("CLIENT_NAME");
    var kind := Placeholder("BUSINESS_TYPE");
    var s0 := kind + c;
    assert s0[..|name|] != name by {
      assert s0[..|name|][2] != name[2];
    }
    var s1 := s0[1..];
    assert s1[..|name|] != name by {
      assert s1[..|name|][1] != name[1];
    }
    var body := kind[2..];
    assert s1[1..] == body + c;
    BusinessTypeTailBraceFree();
    ReplaceAllSkips(body, c, name, v);
    ReplaceAllNoOccurrenceShort([], name, v);
    ReplaceAllSkips(c, [], name, v);
    assert c + [] == c;
    assert ReplaceAll(s0, name, v) == [s0[0]] + ([s1[0]] + (body + c));
  }

  /** The first pass puts the client's name in the place of `{{CLIENT_NAME}}`. */
  lemma NamePass(a: string, b: string, c: string, clientName: string)
    requires forall i :: 0 <= i < |a| ==> a[i] != '{'
    requires forall i :: 0 <= i < |b| ==> b[i] != '{'
    requires forall i :: 0 <= i < |c| ==> c[i] != '{'
    ensures ReplaceAll(a + Placeholder("CLIENT_NAME") + b + Placeholder("BUSINESS_TYPE") + c, Placeholder("CLIENT_NAME"), clientName)
      == a + clientName + b + Placeholder("BUSINESS_TYPE") + c
  {
    var name := Placeholder("CLIENT_NAME");
    var kind := Placeholder("BUSINESS_TYPE");
    var tail := kind + c;
    Assoc(a + name + b, kind, c);
    Assoc(a + name, b, tail);
    ReplaceSingle(a, name, b + tail, clientName);
    ReplaceAllSkips(b, tail, name, clientName);
    BusinessTypeSurvivesNamePass(c, clientName);
    Assoc(a + clientName, b, tail);
    Assoc(a + clientName + b, kind, c);
  }

  /** The second pass puts the business type in the place of `{{BUSINESS_TYPE}}`. */
  lemma BusinessTypePass(x: string, c: string, businessType: string)
    requires forall i :: 0 <= i < |x| ==> x[i] != '{'
    requires forall i :: 0 <= i < |c| ==> c[i] != '{'
    ensures ReplaceAll(x + Placeholder("BUSINESS_TYPE") + c, Placeholder("BUSINESS_TYPE"), businessType) == x + businessType + c
  {
    var kind := Placeholder("BUSINESS_TYPE");
    ReplaceSingle(x, kind, c, businessType);
    ReplaceAllSkips(c, [], kind, businessType);
    ReplaceAllNoOccurrenceShort([], kind, businessType);
    assert c + [] == c;
  }

  /** A template with `{{CLIENT_NAME}}` and then `{{BUSINESS_TYPE}}` in plain
      text, and a client name without `{`, comes back with the name and the
      business type in their places. */
  lemma PitchFillsTemplate(req: ProposalRequest, templates: seq<TemplateRow>, a: string, b: string, c: string)
    requires SingleTemplate(templates, PitchLanguage(req.region)) == Some(a + Placeholder("CLIENT_NAME") + b + Placeholder("BUSINESS_TYPE") + c)
    requires forall i :: 0 <= i < |a| ==> a[i] != '{'
    requires forall i :: 0 <= i < |b| ==> b[i] != '{'
    requires forall i :: 0 <= i < |c| ==> c[i] != '{'
    requires forall i :: 0 <= i < |req.clientName| ==> req.clientName[i] != '{'
    ensures PitchFor(req, templates) == a + req.clientName + b + EffectiveBusinessType(req.region, req.businessType) + c
  {
    var bt := EffectiveBusinessType(req.region, req.businessType);
    var x := a + req.clientName + b;
    SubstituteTwo(a + Placeholder("CLIENT_NAME") + b + Placeholder("BUSINESS_TYPE") + c,
      Entry("CLIENT_NAME", req.clientName), Entry("BUSINESS_TYPE", bt));
    NamePass(a, b, c, req.clientName);
    NoBraceConcat(a, req.clientName, b);
    BusinessTypePass(x, c, bt);
  }

  lemma NoBraceConcat(a: string, b: string, c: string)
    requires forall i :: 0 <= i < |a| ==> a[i] != '{'
    requires forall i :: 0 <= i < |b| ==> b[i] != '{'
    requires forall i :: 0 <= i < |c| ==> c[i] != '{'
    ensures forall i :: 0 <= i < |a + b + c| ==> (a + b + c)[i] != '{'
  {
  }
}

=== FILE: sales_page.dfy ===
/** The sales page: the form state (client name, business type, region),
    its two buttons and the name of the downloaded proposal file. */
module SalesPage {
  import opened Common
  import opened Template
  import opened ProposalGenerator
  import opened Proposals

  /** The page's own copy of the regional pricing table. */
  function PageConfig(r: Region): RegionConfig
  {
    match r
    case BR => RegionConfig("R$", 497, 97, PtBR, "até 3 dias")
    case US => RegionConfig("$", 197, 29, En, "up to 3 days")
    case EU => RegionConfig("€", 197, 29, En, "up to 3 days")
  }

  /** The page's table agrees with the server's, entry for entry. */
  lemma PageConfigMatchesServer(r: Region)
    ensures PageConfig(r) == Config(r)
  {
  }

  /** What the page hands to the generator. */
  function PageData(clientName: string, businessType: string, region: Region): ProposalData
  {
    var cfg := PageConfig(region);
    ProposalData(clientName, Some(businessType), region, cfg.language, cfg.currency,
      cfg.setupFee, cfg.monthlyFee, cfg.deliveryDays)
  }

  /** The page hands the generator exactly what the server action would for
      the same fields, so both produce the same document. */
  lemma PageDataMatchesServer(clientName: string, businessType: string, region: Region)
    ensures PageData(clientName, businessType, region) == DataFor(ProposalRequest(clientName, Some(businessType), region, None))
  {
    PageConfigMatchesServer(region);
  }

  const FilePrefix := "Proposta_"

  /** `Proposta_${clientName.replace(/ /g, '_')}_${Date.now()}.pdf`, with the
      clock reading passed in as `now`. */
  function FileName(clientName: string, now: nat): (name: string)
    ensures |name| == |FilePrefix| + |clientName| + 1 + |NatToString(now)| + 4
    ensures name[..|FilePrefix|] == FilePrefix
    ensures forall i :: 0 <= i < |clientName| ==>
      name[|FilePrefix| + i] == (if clientName[i] == ' ' then '_' else clientName[i])
    ensures name[|FilePrefix| + |clientName|] == '_'
    ensures name[|FilePrefix| + |clientName| + 1..|name| - 4] == NatToString(now)
    ensures name[|name| - 4..] == ".pdf"
  {
    ReplaceAllChar(clientName, ' ', '_');
    var name := FilePrefix + ReplaceAll(clientName, " ", "_") + "_" + NatToString(now) + ".pdf";
    assert name[|FilePrefix| + |clientName| + 1..|name| - 4] == NatToString(now);
    name
  }

  /** The file name holds no space: every space of the client's name became
      an underscore, and the rest of the name is space-free. */
  lemma FileNameHasNoSpace(clientName: string, now: nat)
    ensures forall i :: 0 <= i < |FileName(clientName, now)| ==> FileName(clientName, now)[i] != ' '
  {
    var name := FileName(clientName, now);
    var p := |FilePrefix|;
    var digits := NatToString(now);
    forall i | 0 <= i < |name|
      ensures name[i] != ' '
    {
      if i < p {
        assert name[i] == name[..p][i];
      } else if i < p + |clientName| {
        assert name[i] == (if clientName[i - p] == ' ' then '_' else clientName[i - p]);
      } else if i == p + |clientName| {
      } else if i < |name| - 4 {
        assert name[i] == name[p + |clientName| + 1..|name| - 4][i - p - |clientName| - 1];
        assert IsDigit(digits[i - p - |clientName| - 1]);
      } else {
        assert name[i] == name[|name| - 4..][i - (|name| - 4)];
      }
    }
  }

  /** A download: the file name and the document saved under it. */
  datatype Download = Download(fileName: string, pdf: seq<Item>)

  /** What a click on "generate proposal" saves: the file name and the
      proposal drawn for the form's fields. */
  function ProposalDownload(clientName: string, businessType: string, region: Region, now: nat): Download
  {
    Download(FileName(clientName, now), ProposalItems(PageData(clientName, businessType, region)))
  }

  /** Draws the proposal for the form's fields and names its file. */
  method SaveProposal(clientName: string, businessType: string, region: Region, now: nat) returns (saved: Download)
    ensures saved == ProposalDownload(clientName, businessType, region, now)
  {
    var doc, cursor := GenerateProposalPdf(PageData(clientName, businessType, region));
    saved := Download(FileName(clientName, now), doc.items);
  }

  /** The page's state. `downloads` records each `doc.save`. */
  class SalesPage {
    var clientName: string
    var businessType: string
    var region: Region
    var pitchText: string
    var pdfGenerated: bool
    var downloads: seq<Download>

    constructor()
      ensures clientName == "" && businessType == "" && region == BR
      ensures pitchText == "" && !pdfGenerated && downloads == []
    {
      clientName := "";
      businessType := "";
      region := BR;
      pitchText := "";
      pdfGenerated := false;
      downloads := [];
    }

    /** The client-name and business-type inputs. */
    method EditFields(name: string, kind: string)
      modifies this
      ensures clientName == name && businessType == kind && region == old(region)
      ensures pitchText == old(pitchText) && pdfGenerated == old(pdfGenerated) && downloads == old(downloads)
    {
      clientName := name;
      businessType := kind;
    }

    /** A region button. */
    method SelectRegion(r: Region)
      modifies this
      ensures region == r
      ensures clientName == old(clientName) && businessType == old(businessType)
      ensures pitchText == old(pitchText) && pdfGenerated == old(pdfGenerated) && downloads == old(downloads)
    {
      region := r;
    }

    /** `handleGeneratePitch`: nothing without a client name; otherwise the
        server's pitch for the form's fields replaces the shown text. */
    method HandleGeneratePitch(templates: seq<TemplateRow>)
      modifies this
      ensures old(clientName) == "" ==> pitchText == old(pitchText)
      ensures old(clientName) != "" ==>
        pitchText == PitchFor(ProposalRequest(clientName, Some(businessType), region, None), templates)
      ensures clientName == old(clientName) && businessType == old(businessType) && region == old(region)
      ensures pdfGenerated == old(pdfGenerated) && downloads == old(downloads)
    {
      if clientName == "" {
        return;
      }
      var result := GeneratePitch(ProposalRequest(clientName, Some(businessType), region, None), templates);
      if result.success {
        pitchText := result.pitchText;
      }
    }

    /** `handleGenerateProposal`: nothing without a client name; otherwise the
        proposal is drawn with the region's entry and saved under its file
        name, and the "generated" flag is raised. */
    method HandleGenerateProposal(now: nat)
      modifies this
      ensures old(clientName) == "" ==> downloads == old(downloads) && pdfGenerated == old(pdfGenerated)
      ensures old(clientName) != "" ==> pdfGenerated
      ensures old(clientName) != "" ==>
        downloads == old(downloads) + [ProposalDownload(old(clientName), old(businessType), old(region), now)]
      ensures clientName == old(clientName) && businessType == old(businessType) && region == old(region)
      ensures pitchText == old(pitchText)
    {
      if clientName == "" {
        return;
      }
      var saved := SaveProposal(clientName, businessType, region, now);
      downloads := downloads + [saved];
      pdfGenerated := true;
    }
  }
}

=== FILE: slug.dfy ===
/** `generateSlug` of the new-client form: lower-case the name, turn every
    run of characters other than `a-z` and `0-9` into one hyphen, then drop a
    hyphen at either end. */
module Slugs {
  import opened Common

  /** The characters `[a-z0-9]` keeps. */
  predicate IsSlugChar(c: char)
  {
    ('a' <= c <= 'z') || ('0' <= c <= '9')
  }

  /** A character allowed by the slug field's pattern `[a-z0-9-]`. */
  predicate InPattern(c: char)
  {
    IsSlugChar(c) || c == '-'
  }

  /** No two hyphens in a row. */
  predicate NoDoubleHyphen(s: string)
  {
    forall i :: 0 <= i < |s| - 1 ==> !(s[i] == '-' && s[i + 1] == '-')
  }

  /** A well-formed slug: pattern characters only, no doubled hyphen, no
      hyphen at either end. */
  predicate IsSlug(s: string)
  {
    (forall i :: 0 <= i < |s| ==> InPattern(s[i]))
    && NoDoubleHyphen(s)
    && (|s| > 0 ==> s[0] != '-' && s[|s| - 1] != '-')
  }

  /** The `[a-z0-9]` characters of `s`, in order. */
  function Alnums(s: string): (r: string)
    ensures |r| <= |s|
  {
    if s == [] then []
    else (if IsSlugChar(s[0]) then [s[0]] else []) + Alnums(s[1..])
  }

  /** `s` without its leading run of characters outside `[a-z0-9]`. */
  function DropRun(s: string): (r: string)
    ensures |r| <= |s|
    ensures r == s[|s| - |r|..]
    ensures |r| > 0 ==> IsSlugChar(r[0])
    ensures |s| > 0 && !IsSlugChar(s[0]) ==> |r| < |s|
    ensures Alnums(r) == Alnums(s)
  {
    if s == [] || IsSlugChar(s[0]) then s
    else DropRun(s[1..])
  }

  /** `.replace(/[^a-z0-9]+/g, '-')`: each maximal run outside `[a-z0-9]`
      becomes a single hyphen. */
  function Hyphenate(s: string): (r: string)
    ensures forall i :: 0 <= i < |r| ==> InPattern(r[i])
    ensures NoDoubleHyphen(r)
    ensures |s| > 0 <==> |r| > 0
    ensures |s| > 0 && IsSlugChar(s[0]) ==> r[0] == s[0]
    ensures |s| > 0 && !IsSlugChar(s[0]) ==> r[0] == '-'
    ensures Alnums(r) == Alnums(s)
    decreases |s|
  {
    if s == [] then []
    else if IsSlugChar(s[0]) then
      var rest := Hyphenate(s[1..]);
      assert Alnums([s[0]] + rest) == [s[0]] + Alnums(rest) by {
        assert ([s[0]] + rest)[1..] == rest;
      }
      [s[0]] + rest
    else
      var rest := Hyphenate(DropRun(s));
      assert Alnums(['-'] + rest) == Alnums(rest) by {
        assert (['-'] + rest)[1..] == rest;
      }
      ['-'] + rest
  }

  /** Text made only of `[a-z0-9]` characters is copied through unchanged,
      whatever follows it. */
  lemma {:induction false} HyphenateKeepsSlugChars(x: string, t: string)
    requires forall i :: 0 <= i < |x| ==> IsSlugChar(x[i])
    ensures Hyphenate(x + t) == x + Hyphenate(t)
    decreases |x|
  {
    if x == [] {
      assert x + t == t;
    } else {
      assert (x + t)[0] == x[0];
      assert (x + t)[1..] == x[1..] + t;
      HyphenateKeepsSlugChars(x[1..], t);
      assert x == [x[0]] + x[1..];
      Assoc([x[0]], x[1..], Hyphenate(t));
    }
  }

  /** A whole run outside `[a-z0-9]` is skipped up to the next kept character. */
  lemma {:induction false} DropWholeRun(w: string, y: string)
    requires forall i :: 0 <= i < |w| ==> !IsSlugChar(w[i])
    requires y == [] || IsSlugChar(y[0])
    ensures DropRun(w + y) == y
    decreases |w|
  {
    if w == [] {
      assert w + y == y;
    } else {
      assert (w + y)[0] == w[0];
      assert (w + y)[1..] == w[1..] + y;
      DropWholeRun(w[1..], y);
    }
  }

  /** A maximal run outside `[a-z0-9]` becomes exactly one hyphen. */
  lemma HyphenateRun(w: string, y: string)
    requires |w| > 0 && forall i :: 0 <= i < |w| ==> !IsSlugChar(w[i])
    requires y == [] || IsSlugChar(y[0])
    ensures Hyphenate(w + y) == "-" + Hyphenate(y)
  {
    assert (w + y)[0] == w[0];
    DropWholeRun(w, y);
  }

  /** The hyphen goes where the run was: the words on either side are kept
      and joined by one hyphen. */
  lemma HyphenateSeparator(x: string, w: string, y: string)
    requires forall i :: 0 <= i < |x| ==> IsSlugChar(x[i])
    requires |w| > 0 && forall i :: 0 <= i < |w| ==> !IsSlugChar(w[i])
    requires forall i :: 0 <= i < |y| ==> IsSlugChar(y[i])
    ensures Hyphenate(x + w + y) == x + "-" + y
  {
    Assoc(x, w, y);
    HyphenateKeepsSlugChars(x, w + y);
    HyphenateRun(w, y);
    HyphenateKeepsSlugChars(y, []);
    assert y + [] == y;
    Assoc(x, "-", y);
  }

  /** `.replace(/(^-|-$)/g, '')`: a hyphen at the start and one at the end
      are removed. */
  function Trim(t: string): (r: string)
    ensures |r| <= |t|
  {
    var u := if |t| > 0 && t[0] == '-' then t[1..] else t;
    if |u| > 0 && u[|u| - 1] == '-' then u[..|u| - 1] else u
  }

  /** `generateSlug`. */
  function GenerateSlug(name: string): (slug: string)
    ensures IsSlug(slug)
    ensures Alnums(slug) == Alnums(Lower(name))
  {
    var h := Hyphenate(Lower(name));
    TrimSlug(h);
    TrimKeepsAlnums(h);
    Trim(h)
  }

  /** Two words of `[a-z0-9]` separated by any run of other characters give
      the slug `first-second`, as "Acme Corp" gives "acme-corp". */
  lemma GenerateSlugJoinsWords(name: string, x: string, w: string, y: string)
    requires Lower(name) == x + w + y
    requires |x| > 0 && forall i :: 0 <= i < |x| ==> IsSlugChar(x[i])
    requires |w| > 0 && forall i :: 0 <= i < |w| ==> !IsSlugChar(w[i])
    requires |y| > 0 && forall i :: 0 <= i < |y| ==> IsSlugChar(y[i])
    ensures GenerateSlug(name) == x + "-" + y
  {
    HyphenateSeparator(x, w, y);
    var h := x + "-" + y;
    assert h[0] == x[0] && h[|h| - 1] == y[|y| - 1];
  }

  lemma {:induction false} AlnumsAppend(a: string, b: string)
    ensures Alnums(a + b) == Alnums(a) + Alnums(b)
    decreases |a|
  {
    if a == [] {
      assert a + b == b;
    } else {
      var head := if IsSlugChar(a[0]) then [a[0]] else [];
      assert (a + b)[0] == a[0];
      assert (a + b)[1..] == a[1..] + b;
      assert Alnums(a + b) == head + Alnums(a[1..] + b);
      AlnumsAppend(a[1..], b);
      assert Alnums(a) == head + Alnums(a[1..]);
    }
  }

  lemma AlnumsHyphen()
    ensures Alnums("-") == []
  {
    assert "-"[1..] == [];
  }

  /** A stretch of pattern text without doubled hyphens is such text too. */
  lemma SliceKeepsPattern(h: string, lo: int, hi: int)
    requires 0 <= lo <= hi <= |h|
    requires forall i :: 0 <= i < |h| ==> InPattern(h[i])
    requires NoDoubleHyphen(h)
    ensures forall i :: 0 <= i < hi - lo ==> InPattern(h[lo..hi][i])
    ensures NoDoubleHyphen(h[lo..hi])
  {
    var s := h[lo..hi];
    forall i | 0 <= i < |s| - 1
      ensures !(s[i] == '-' && s[i + 1] == '-')
    {
      assert s[i] == h[lo + i] && s[i + 1] == h[lo + i + 1];
    }
  }

  /** Trimming the hyphenated text leaves a well-formed slug. */
  lemma TrimSlug(h: string)
    requires forall i :: 0 <= i < |h| ==> InPattern(h[i])
    requires NoDoubleHyphen(h)
    ensures IsSlug(Trim(h))
  {
    var lo := if |h| > 0 && h[0] == '-' then 1 else 0;
    var u := h[lo..];
    var hi := if |u| > 0 && u[|u| - 1] == '-' then |h| - 1 else |h|;
    assert Trim(h) == h[lo..hi];
    SliceKeepsPattern(h, lo, hi);
    var r := h[lo..hi];
    if |r| > 0 {
      assert r[0] == h[lo] && r[|r| - 1] == h[hi - 1];
      assert lo == 1 ==> h[1] != '-';
      assert hi == |h| - 1 ==> h[|h| - 2] != '-';
    }
  }

  /** Trimming only removes hyphens, so the letters and digits stay. */
  lemma TrimKeepsAlnums(h: string)
    ensures Alnums(Trim(h)) == Alnums(h)
  {
    AlnumsHyphen();
    var u := if |h| > 0 && h[0] == '-' then h[1..] else h;
    if |h| > 0 && h[0] == '-' {
      assert h == "-" + u;
      AlnumsAppend("-", u);
    }
    assert Alnums(u) == Alnums(h);
    if |u| > 0 && u[|u| - 1] == '-' {
      assert u == u[..|u| - 1] + "-";
      AlnumsAppend(u[..|u| - 1], "-");
      assert u[..|u| - 1] + [] == u[..|u| - 1];
    }
  }

  /** A slug only keeps `[a-z0-9]` characters and hyphens, so a name with no
      ASCII letter or digit gives the empty slug. */
  lemma NoAlnumsEmptySlug(name: string)
    requires Alnums(Lower(name)) == []
    ensures GenerateSlug(name) == ""
  {
    var slug := GenerateSlug(name);
    if slug != [] {
      AllHyphensHasNoAlnum(slug);
    }
  }

  /** A non-empty slug holds a letter or digit: its first character. */
  lemma AllHyphensHasNoAlnum(slug: string)
    requires IsSlug(slug) && slug != []
    ensures Alnums(slug) != []
  {
    assert IsSlugChar(slug[0]);
    assert Alnums(slug) == [slug[0]] + Alnums(slug[1..]);
  }

  lemma {:induction false} LowerOfSlug(s: string)
    requires forall i :: 0 <= i < |s| ==> InPattern(s[i])
    ensures Lower(s) == s
  {
  }

  /** Dropping the first character of hyphenated text that does not end in
      a hyphen leaves such text. */
  lemma TailKeepsSlugText(s: string)
    requires |s| > 0
    requires forall i :: 0 <= i < |s| ==> InPattern(s[i])
    requires NoDoubleHyphen(s)
    requires s[|s| - 1] != '-'
    ensures forall i :: 0 <= i < |s| - 1 ==> InPattern(s[1..][i])
    ensures NoDoubleHyphen(s[1..])
    ensures |s| > 1 ==> s[1..][|s| - 2] != '-'
  {
    SliceKeepsPattern(s, 1, |s|);
    assert s[1..|s|] == s[1..];
  }

  /** On a well-formed slug, hyphenation changes nothing: each hyphen is a run
      of length one. */
  lemma {:induction false} HyphenateSlugText(s: string)
    requires forall i :: 0 <= i < |s| ==> InPattern(s[i])
    requires NoDoubleHyphen(s)
    requires |s| > 0 ==> s[|s| - 1] != '-'
    ensures Hyphenate(s) == s
    decreases |s|
  {
    if s != [] {
      TailKeepsSlugText(s);
      HyphenateSlugText(s[1..]);
      if !IsSlugChar(s[0]) {
        assert |s| > 1 && IsSlugChar(s[1]);
        assert DropRun(s[1..]) == s[1..];
      }
      assert [s[0]] + s[1..] == s;
    }
  }

  /** `generateSlug` is idempotent: a slug is its own slug. */
  lemma GenerateSlugIdempotent(name: string)
    ensures GenerateSlug(GenerateSlug(name)) == GenerateSlug(name)
  {
    var slug := GenerateSlug(name);
    LowerOfSlug(slug);
    HyphenateSlugText(slug);
    assert Trim(slug) == slug;
  }
}

=== FILE: template.dfy ===
/** `replaceVariables` of the proposal generator: a sequential, global,
    literal substitution of `{{KEY}}` placeholders. */
module Template {
  import opened Common

  /** One `[key, value]` pair of `Object.entries(variables)`, in entry order. */
  datatype Entry = Entry(key: string, value: string)

  /** The names used as keys: letters, digits and `_`, with at least one
      character that is not a digit. An all-digit key such as `1` would make
      `{{1}}` a regular-expression quantifier rather than literal text. */
  predicate IsKeyName(k: string)
  {
    |k| > 0 && (forall i :: 0 <= i < |k| ==> IsKeyChar(k[i]))
    && exists i :: 0 <= i < |k| && !('0' <= k[i] <= '9')
  }

  predicate IsKeyChar(c: char)
  {
    ('A' <= c <= 'Z') || ('a' <= c <= 'z') || ('0' <= c <= '9') || c == '_'
  }

  function Placeholder(key: string): (p: string)
    ensures |p| == |key| + 4 && p[0] == '{'
  {
    "{{" + key + "}}"
  }

  /** `s.replace(new RegExp(p, 'g'), v)` for a pattern matched literally:
      scan left to right, replace each leftmost match and go on after it. */
  function ReplaceAll(s: string, p: string, v: string): string
    requires |p| > 0
    decreases |s|
  {
    if |s| < |p| then s
    else if s[..|p|] == p then v + ReplaceAll(s[|p|..], p, v)
    else [s[0]] + ReplaceAll(s[1..], p, v)
  }

  /** The reference meaning of `replaceVariables`: the entries applied one
      after another, each to the text the earlier ones produced. */
  function Substitute(template: string, variables: seq<Entry>): string
  {
    if variables == [] then template
    else
      var last := variables[|variables| - 1];
      ReplaceAll(Substitute(template, variables[..|variables| - 1]), Placeholder(last.key), last.value)
  }

  /** The loop of `replaceVariables`: `result` is reassigned once per entry. */
  method ReplaceVariables(template: string, variables: seq<Entry>) returns (result: string)
    ensures result == Substitute(template, variables)
  {
    result := template;
    var i := 0;
    while i < |variables|
      invariant 0 <= i <= |variables|
      invariant result == Substitute(template, variables[..i])
    {
      var entry := variables[i];
      assert variables[..i + 1][..i] == variables[..i];
      result := ReplaceAll(result, Placeholder(entry.key), entry.value);
      i := i + 1;
    }
    assert variables[..i] == variables;
  }

  /** Text in which the pattern does not occur comes back unchanged. */
  lemma {:induction false} ReplaceAllNoOccurrence(s: string, p: string, v: string)
    requires |p| > 0 && !Occurs(p, s)
    ensures ReplaceAll(s, p, v) == s
    decreases |s|
  {
    if |s| >= |p| {
      if s[..|p|] == p {
        OccursAt(p, s, 0);
      } else {
        if Occurs(p, s[1..]) {
          OccursInSuffix(p, s, 1);
        }
        ReplaceAllNoOccurrence(s[1..], p, v);
      }
    }
  }

  /** A stretch free of the pattern's first character is copied through. */
  lemma {:induction false} ReplaceAllSkips(x: string, rest: string, p: string, v: string)
    requires |p| > 0
    requires forall i :: 0 <= i < |x| ==> x[i] != p[0]
    ensures ReplaceAll(x + rest, p, v) == x + ReplaceAll(rest, p, v)
    decreases |x|
  {
    if x == [] {
      assert x + rest == rest;
    } else {
      var s := x + rest;
      if |s| < |p| {
        ReplaceAllNoOccurrenceShort(rest, p, v);
        ReplaceAllNoOccurrenceShort(s, p, v);
      } else {
        assert s[0] == x[0] && s[..|p|][0] == s[0];
        assert s[..|p|] != p;
        assert ReplaceAll(s, p, v) == [s[0]] + ReplaceAll(s[1..], p, v);
        assert s[1..] == x[1..] + rest;
        ReplaceAllSkips(x[1..], rest, p, v);
        assert [x[0]] + (x[1..] + ReplaceAll(rest, p, v)) == x + ReplaceAll(rest, p, v);
      }
    }
  }

  lemma ReplaceAllNoOccurrenceShort(s: string, p: string, v: string)
    requires 0 < |p| && |s| < |p|
    ensures ReplaceAll(s, p, v) == s
  {
  }

  /** An occurrence at the front is replaced and scanning resumes after it. */
  lemma ReplaceAllAtFront(p: string, rest: string, v: string)
    requires |p| > 0
    ensures ReplaceAll(p + rest, p, v) == v + ReplaceAll(rest, p, v)
  {
    assert (p + rest)[..|p|] == p;
    assert (p + rest)[|p|..] == rest;
  }

  /** One occurrence after a stretch free of the pattern's first character
      is replaced, and scanning goes on after it. */
  lemma ReplaceSingle(x: string, p: string, rest: string, v: string)
    requires |p| > 0
    requires forall i :: 0 <= i < |x| ==> x[i] != p[0]
    ensures ReplaceAll(x + p + rest, p, v) == x + v + ReplaceAll(rest, p, v)
  {
    Assoc(x, p, rest);
    ReplaceAllSkips(x, p + rest, p, v);
    ReplaceAllAtFront(p, rest, v);
    Assoc(x, v, ReplaceAll(rest, p, v));
  }

  /** `pieces` glued together with `sep` in between. */
  function Join(pieces: seq<string>, sep: string): string
    requires |pieces| > 0
  {
    if |pieces| == 1 then pieces[0] else pieces[0] + sep + Join(pieces[1..], sep)
  }

  predicate FreeOf(pieces: seq<string>, c: char)
  {
    forall k, i :: 0 <= k < |pieces| && 0 <= i < |pieces[k]| ==> pieces[k][i] != c
  }

  /** Every occurrence is replaced, not only the first: a text that is the
      placeholder repeated between pieces of plain text becomes the value
      repeated between the same pieces. */
  lemma {:induction false} ReplaceAllEveryOccurrence(pieces: seq<string>, key: string, v: string)
    requires |pieces| > 0 && FreeOf(pieces, '{')
    ensures ReplaceAll(Join(pieces, Placeholder(key)), Placeholder(key), v) == Join(pieces, v)
    decreases |pieces|
  {
    var p := Placeholder(key);
    if |pieces| == 1 {
      ReplaceAllSkips(pieces[0], [], p, v);
      assert pieces[0] + [] == pieces[0];
    } else {
      var tail := Join(pieces[1..], p);
      assert Join(pieces, p) == pieces[0] + (p + tail);
      ReplaceAllSkips(pieces[0], p + tail, p, v);
      ReplaceAllAtFront(p, tail, v);
      assert FreeOf(pieces[1..], '{');
      ReplaceAllEveryOccurrence(pieces[1..], key, v);
      assert Join(pieces, v) == pieces[0] + (v + Join(pieces[1..], v));
    }
  }

  /** Applying a list of entries in two parts is applying the first part
      and then the second to its output. */
  lemma {:induction false} SubstituteAppend(template: string, first: seq<Entry>, second: seq<Entry>)
    ensures Substitute(template, first + second) == Substitute(Substitute(template, first), second)
    decreases |second|
  {
    if second == [] {
      assert first + second == first;
    } else {
      var all := first + second;
      assert all[..|all| - 1] == first + second[..|second| - 1];
      assert all[|all| - 1] == second[|second| - 1];
      SubstituteAppend(template, first, second[..|second| - 1]);
    }
  }

  /** Two entries: the first key's pass, then the second's. */
  lemma SubstituteTwo(template: string, first: Entry, second: Entry)
    ensures Substitute(template, [first, second])
      == ReplaceAll(ReplaceAll(template, Placeholder(first.key), first.value), Placeholder(second.key), second.value)
  {
    var vars := [first, second];
    assert vars[..1] == [first];
    assert [first][..0] == [];
    assert Substitute(template, [first]) == ReplaceAll(template, Placeholder(first.key), first.value);
    assert Substitute(template, vars) == ReplaceAll(Substitute(template, vars[..1]), Placeholder(second.key), second.value);
  }

  /** A template in which no key's placeholder occurs is returned verbatim;
      in particular an empty variables map is a no-op. */
  lemma {:induction false} SubstituteNoPlaceholder(template: string, variables: seq<Entry>)
    requires forall k :: 0 <= k < |variables| ==> !Occurs(Placeholder(variables[k].key), template)
    ensures Substitute(template, variables) == template
    decreases |variables|
  {
    if variables != [] {
      var last := variables[|variables| - 1];
      SubstituteNoPlaceholder(template, variables[..|variables| - 1]);
      ReplaceAllNoOccurrence(template, Placeholder(last.key), last.value);
    }
  }

  /** The placeholder of one key name never occurs inside the placeholder
      of a different key name. */
  lemma PlaceholderDistinct(k: string, x: string)
    requires IsKeyName(k) && IsKeyName(x) && k != x
    ensures !Occurs(Placeholder(k), Placeholder(x))
  {
    var p, s := Placeholder(k), Placeholder(x);
    forall i | 0 <= i <= |s| - |p|
      ensures !(p <= s[i..])
    {
      PlaceholderNotAt(k, x, i);
    }
  }

  lemma PlaceholderNotAt(k: string, x: string, i: int)
    requires IsKeyName(k) && IsKeyName(x) && k != x
    requires 0 <= i <= |Placeholder(x)| - |Placeholder(k)|
    ensures !(Placeholder(k) <= Placeholder(x)[i..])
  {
    var p, s := Placeholder(k), Placeholder(x);
    if i > 0 {
      assert p[1] != s[i..][1];
    } else if |k| < |x| {
      assert p[2 + |k|] != s[i..][2 + |k|];
    } else {
      var m :| 0 <= m < |k| && k[m] != x[m];
      assert p[2 + m] != s[i..][2 + m];
    }
  }

  /** A template that is just a `{{NAME}}` whose NAME is not one of the keys
      comes back unchanged. */
  lemma LonePlaceholderVerbatim(name: string, variables: seq<Entry>)
    requires IsKeyName(name)
    requires forall k :: 0 <= k < |variables| ==> IsKeyName(variables[k].key) && variables[k].key != name
    ensures Substitute(Placeholder(name), variables) == Placeholder(name)
  {
    forall k | 0 <= k < |variables|
      ensures !Occurs(Placeholder(variables[k].key), Placeholder(name))
    {
      PlaceholderDistinct(variables[k].key, name);
    }
    SubstituteNoPlaceholder(Placeholder(name), variables);
  }

  /** Another key's placeholder is not a prefix of `{{NAME}}`, whatever follows it. */
  lemma PlaceholderNotPrefix(k: string, n: string, b: string)
    requires IsKeyName(k) && IsKeyName(n) && k != n
    requires |Placeholder(k)| <= |Placeholder(n) + b|
    ensures (Placeholder(n) + b)[..|Placeholder(k)|] != Placeholder(k)
  {
    var p, t := Placeholder(k), Placeholder(n) + b;
    if |k| < |n| {
      assert p[2 + |k|] != t[2 + |k|];
    } else if |k| > |n| {
      assert p[2 + |n|] != t[2 + |n|];
    } else {
      var m :| 0 <= m < |k| && k[m] != n[m];
      assert p[2 + m] != t[2 + m];
    }
  }

  /** Where the pattern does not start, the scan copies one character. */
  lemma ReplaceAllNoMatchHere(s: string, p: string, v: string)
    requires |p| > 0 && |s| > 0
    requires |s| < |p| || s[..|p|] != p
    ensures ReplaceAll(s, p, v) == [s[0]] + ReplaceAll(s[1..], p, v)
  {
    if |s| < |p| {
      ReplaceAllNoOccurrenceShort(s[1..], p, v);
      assert s == [s[0]] + s[1..];
    }
  }

  /** A pattern that opens with `{{` and has no other `{`, as every
      placeholder does. */
  predicate OpensOnce(p: string)
  {
    |p| >= 3 && p[0] == '{' && p[1] == '{' && forall j :: 2 <= j < |p| ==> p[j] != '{'
  }

  lemma PlaceholderOpensOnce(k: string)
    requires IsKeyName(k)
    ensures OpensOnce(Placeholder(k))
  {
    var p := Placeholder(k);
    forall j | 2 <= j < |p|
      ensures p[j] != '{'
    {
      if j < |p| - 2 {
        assert p[j] == k[j - 2];
      }
    }
  }

  /** Scanning for another key's placeholder copies `{{NAME}}` through. */
  lemma ReplaceAllKeepsPlaceholder(n: string, b: string, k: string, v: string)
    requires IsKeyName(k) && IsKeyName(n) && k != n
    ensures ReplaceAll(Placeholder(n) + b, Placeholder(k), v) == Placeholder(n) + ReplaceAll(b, Placeholder(k), v)
  {
    var p, q := Placeholder(k), Placeholder(n);
    PlaceholderOpensOnce(k);
    PlaceholderOpensOnce(n);
    var t := q + b;
    if |t| >= |p| {
      PlaceholderNotPrefix(k, n, b);
    }
    ReplaceAllNoMatchHere(t, p, v);
    var t1 := t[1..];
    assert t1 == q[1..] + b;
    if |t1| >= |p| {
      assert t1[..|p|][1] != p[1];
    }
    ReplaceAllNoMatchHere(t1, p, v);
    var body := q[2..];
    assert t1[1..] == body + b;
    ReplaceAllSkips(body, b, p, v);
    assert q == [q[0]] + [q[1]] + body;
  }

  /** A `{{`-opening pattern cannot begin inside `a` and end inside a `{{`
      that follows: only its second character is a `{`. */
  lemma NoStraddle(a: string, rest: string, p: string)
    requires OpensOnce(p)
    requires |rest| >= 2 && rest[0] == '{' && rest[1] == '{'
    requires 0 < |a| < |p| <= |a + rest|
    ensures (a + rest)[..|p|] != p
  {
    var t := a + rest;
    var j := |a|;
    assert t[j] == '{' && t[j + 1] == '{';
    if j == 1 {
      assert t[..|p|][2] != p[2];
    } else {
      assert t[..|p|][j] != p[j];
    }
  }

  /** No occurrence of a `{{`-opening pattern can start inside `a` and run
      on into a following `{{`, so `a` is scanned on its own. */
  lemma {:induction false} ReplaceAllBeforePlaceholder(a: string, rest: string, p: string, v: string)
    requires OpensOnce(p)
    requires |rest| >= 2 && rest[0] == '{' && rest[1] == '{'
    ensures ReplaceAll(a + rest, p, v) == ReplaceAll(a, p, v) + ReplaceAll(rest, p, v)
    decreases |a|
  {
    var s := a + rest;
    if a == [] {
      assert s == rest;
    } else if |s| < |p| {
      ReplaceAllNoOccurrenceShort(a, p, v);
      ReplaceAllNoOccurrenceShort(rest, p, v);
    } else {
      if |a| < |p| {
        NoStraddle(a, rest, p);
      }
      if s[..|p|] == p {
        assert a[..|p|] == p;
        assert s[|p|..] == a[|p|..] + rest;
        ReplaceAllBeforePlaceholder(a[|p|..], rest, p, v);
        Assoc(v, ReplaceAll(a[|p|..], p, v), ReplaceAll(rest, p, v));
      } else {
        ReplaceAllNoMatchHere(s, p, v);
        assert s[1..] == a[1..] + rest;
        ReplaceAllBeforePlaceholder(a[1..], rest, p, v);
        if |a| >= |p| {
          assert forall j :: 0 <= j < |p| ==> s[j] == a[j];
          assert a[..|p|] == s[..|p|];
        }
        ReplaceAllNoMatchHere(a, p, v);
        Assoc([a[0]], ReplaceAll(a[1..], p, v), ReplaceAll(rest, p, v));
      }
    }
  }

  /** One replacement pass for another key keeps an occurrence of `{{NAME}}`. */
  lemma ReplaceAllKeepsOccurrence(t: string, name: string, k: string, v: string)
    requires IsKeyName(name) && IsKeyName(k) && k != name
    requires Occurs(Placeholder(name), t)
    ensures Occurs(Placeholder(name), ReplaceAll(t, Placeholder(k), v))
  {
    var p, q := Placeholder(k), Placeholder(name);
    var i :| 0 <= i <= |t| - |q| && q <= t[i..];
    var a, r := t[..i], t[i..];
    assert t == a + r;
    var b := r[|q|..];
    assert r == q + b;
    PlaceholderOpensOnce(k);
    ReplaceAllBeforePlaceholder(a, r, p, v);
    ReplaceAllKeepsPlaceholder(name, b, k, v);
    var ra, rb := ReplaceAll(a, p, v), ReplaceAll(b, p, v);
    assert ReplaceAll(t, p, v) == ra + (q + rb);
    Assoc(ra, q, rb);
    OccursMiddle(ra, q, rb);
  }

  /** A `{{NAME}}` whose NAME is not one of the keys is left verbatim wherever
      it stands in the template, next to known placeholders or not. */
  lemma {:induction false} UnknownPlaceholderVerbatim(name: string, template: string, variables: seq<Entry>)
    requires IsKeyName(name)
    requires forall k :: 0 <= k < |variables| ==> IsKeyName(variables[k].key) && variables[k].key != name
    requires Occurs(Placeholder(name), template)
    ensures Occurs(Placeholder(name), Substitute(template, variables))
    decreases |variables|
  {
    if variables != [] {
      var init, last := variables[..|variables| - 1], variables[|variables| - 1];
      UnknownPlaceholderVerbatim(name, template, init);
      ReplaceAllKeepsOccurrence(Substitute(template, init), name, last.key, last.value);
    }
  }

  /** Keys are applied in entry order, so a value inserted for an earlier key
      is itself rewritten when it holds a later key's placeholder. */
  lemma LaterKeyRewritesEarlierValue(a: string, b: string, w: string)
    ensures Substitute(Placeholder(a), [Entry(a, Placeholder(b)), Entry(b, w)]) == w
  {
    var vars := [Entry(a, Placeholder(b)), Entry(b, w)];
    assert vars[..1] == [Entry(a, Placeholder(b))];
    assert vars[..1][..0] == [];
    ReplaceAllAtFront(Placeholder(a), [], Placeholder(b));
    assert Placeholder(a) + [] == Placeholder(a);
    assert ReplaceAll([], Placeholder(a), Placeholder(b)) == [];
    assert Substitute(Placeholder(a), vars[..1]) == Placeholder(b);
    ReplaceAllAtFront(Placeholder(b), [], w);
    assert Placeholder(b) + [] == Placeholder(b);
    assert ReplaceAll([], Placeholder(b), w) == [];
  }

  /** `s.replace(/ /g, '_')` and other single-character replacements work
      character by character. */
  lemma {:induction false} ReplaceAllChar(s: string, c: char, d: char)
    ensures |ReplaceAll(s, [c], [d])| == |s|
    ensures forall i :: 0 <= i < |s| ==> ReplaceAll(s, [c], [d])[i] == (if s[i] == c then d else s[i])
    decreases |s|
  {
    if s != [] {
      ReplaceAllChar(s[1..], c, d);
    }
  }
}
